=== FILE: README.md ===
# Bledot dashboard telemetry engine, in Dafny

This project models the telemetry engine of the Bledot monitoring dashboard.
That engine is the `SupabaseData` class of
`streamlit-app/src/bledot_dash_src/supabase_data.py`. The model also covers
the small pure rules the company pages build on it.

**Rows and frames.** A telemetry row is a map from column name to a `Value`:
null, a number, a string, a boolean or a list of numbers. A pandas data frame
is its column set plus its rows in order (`Frames`). Python exceptions are the
`Raise` branch of a `Result`.

**The engine's helpers**, each a pure function over a frame:
- the metrics aggregator (`MetricsKpi`);
- the threshold table and the issue detector (`Issues`);
- the power-series bucketer and the avg/min/max history step (`Power`);
- the two-level packet-loss mean (`PacketLoss`);
- the configuration extractor (`Config`).

**The assemblers** (`Assembler`) combine these helpers into:
- the per-machine history payload;
- the company summary, with its active and offline counts;
- the dashboard bundle.

Database answers and the current time are parameters. A query's answer is a
`Result` of rows, already filtered and ordered by the database. `now` is a
Unix time in seconds.

**Companion rules:**
- `Charts`: colour choice, gauge fractions and clamping;
- `Session`: the session store, modelled as a map;
- `CompanyDash`: the company page's reload cache, issue union, label column and tabs;
- `Software`: the software tab's firewall card, idle count and packet-loss card;
- `Passwords`: the password-change form and `change_own_password`.

**Where the code's evident intent and its behaviour differ, the model follows the code:**
- **Configuration extractor.** The branch that stores `None` for a field with
  no value (supabase_data.py:163-164) shows that each field was meant to take
  its first non-null value, or None. The code has no `else`, and it then reads
  label 0 of the null-free series, so it raises whenever row 0 of a field is
  null (see Findings). Both versions are modelled. The history payload takes
  the extractor as a `ConfigRule` parameter.
- **Fallback rows.** The code falls back to "older records"
  (supabase_data.py:254-259), but its unfiltered query has `.limit(5)` and no
  ordering. The model takes the first five rows the database returns.
- **Latest metrics.** The comment at supabase_data.py:195 ("latest metrics
  for all machines of a client") reads as the latest metrics of each
  machine. The code takes the newest 100 rows across all of the company's
  machines together, so a busy machine can crowd the others out.
- **Stored export.** `get_download_data` (download_metrics.py:13-15) reuses
  any export the session holds, and nothing removes it, so after the page
  reloads for another company the session still offers the first company's
  metrics (see Findings). The page takes an `ExportRule`: `KeepStored` is the
  code, `PerCompany` drops the stored export before a reload.

## Model

| member | source | states |
|---|---|---|
| Frames.NumericValue | streamlit-app/src/bledot_dash_src/supabase_data.py:86-88 | a cell passes the int/float test iff it is a number or a boolean (bool is an int in Python); numbers keep their value |
| Stats.MeanBetweenMinMax | streamlit-app/src/bledot_dash_src/supabase_data.py:93-95 | the mean of a non-empty series lies between its minimum and its maximum |
| MetricsKpi.NumericColumn | streamlit-app/src/bledot_dash_src/supabase_data.py:86-88 | the values kept for a column are exactly the numbers some row holds in it (nulls, strings and lists dropped), none iff no row holds a number; a column of numbers only is kept whole in row order |
| MetricsKpi.NumericColumnSnoc | streamlit-app/src/bledot_dash_src/supabase_data.py:86-88 | one more row appends its cell to the column's numbers when it is a number and nothing otherwise, which fixes order and multiplicity |
| MetricsKpi.NumericsAppend | streamlit-app/src/bledot_dash_src/supabase_data.py:86-88 | the numbers of two cell lists joined are the numbers of each, joined |
| MetricsKpi.Aggregate | streamlit-app/src/bledot_dash_src/supabase_data.py:75-97 | empty frame: every column maps to the default in avg only, min and max are empty; otherwise the three maps share one key set, exactly the columns with a numeric cell, and per column avg is the mean, max the maximum and min the minimum of the column's numbers, with min <= avg <= max and min and max observed cells bounding every cell |
| Issues.Labels | streamlit-app/src/bledot_dash_src/supabase_data.py:24-37 | the label set is exactly the metric names of the threshold table |
| Issues.Ordered | streamlit-app/src/bledot_dash_src/supabase_data.py:116-119 | a null cell compares false, a number compares inclusively (>= or <=), a string or list raises TypeError |
| Issues.TableComparators | streamlit-app/src/bledot_dash_src/supabase_data.py:110-119 | for every table entry: null is never flagged; SMART is flagged iff not "PASSED", not "OK" and not null; firewall iff "TRUE"; only the two idle rates compare downwards; numeric metrics flag at or beyond the limit |
| Issues.RowFlags | streamlit-app/src/bledot_dash_src/supabase_data.py:108-119 | the comparison mask raises iff some cell cannot be compared, and otherwise marks exactly the flagged rows |
| Issues.AddFlaggedAdds | streamlit-app/src/bledot_dash_src/supabase_data.py:121-124 | adding a mask adds exactly the (machine, metric) pairs of its flagged rows and never creates an empty set |
| Issues.Scan | streamlit-app/src/bledot_dash_src/supabase_data.py:104-124 | the loop over the table raises iff a present metric has an incomparable cell or the id column is missing; otherwise it adds exactly the violations of the remaining entries |
| Issues.Report | streamlit-app/src/bledot_dash_src/supabase_data.py:99-126 | empty frame gives {}; succeeds iff the frame is empty or every present metric compares; machine m lists label l iff some row of m violates l; every listed set is non-empty and holds table labels only |
| Issues.ReportKeysAreFlaggedMachines | streamlit-app/src/bledot_dash_src/supabase_data.py:121-124 | every machine in the report is the id of some row and violates some table label |
| Power.Buckets | streamlit-app/src/bledot_dash_src/supabase_data.py:128-149 | no rows gives []; otherwise succeeds iff both columns exist; the bucket count is the deepest machine's reading count and bucket k is the rank-k reference list, never empty |
| Power.FoldCountsReadings | streamlit-app/src/bledot_dash_src/supabase_data.py:130-147 | after the loop each machine's counter equals its number of non-null readings |
| Power.FoldComputesRanks | streamlit-app/src/bledot_dash_src/supabase_data.py:143-147 | the loop builds exactly the rank lists: bucket k holds, in input order, each machine's k-th non-null reading |
| Power.RanksBelowDepth | streamlit-app/src/bledot_dash_src/supabase_data.py:143-146 | a rank has entries iff it is below the depth, so no bucket is empty |
| Power.RankHoldsEachMachineOnce | streamlit-app/src/bledot_dash_src/supabase_data.py:143-147 | bucket k holds machine m once if m has more than k readings, otherwise not at all |
| Power.RankEntryIsKthReading | streamlit-app/src/bledot_dash_src/supabase_data.py:135-147 | the entry of machine m in bucket k is m's k-th non-null reading; null rows take no position |
| Power.EveryReadingBucketed | streamlit-app/src/bledot_dash_src/supabase_data.py:135-147 | the buckets hold as many entries as there are rows with a reading |
| Power.Summary | streamlit-app/src/bledot_dash_src/supabase_data.py:400-407 | a bucket has a summary iff it is non-empty and every reading is a number |
| Power.SummaryCorrect | streamlit-app/src/bledot_dash_src/supabase_data.py:400-407 | a bucket's summary is (the mean of its readings in bucket order, a reading below all readings, a reading above all readings), with min <= avg <= max |
| Power.ForwardOk | streamlit-app/src/bledot_dash_src/supabase_data.py:400-407 | the loop over the buckets succeeds iff every bucket has a summary |
| Power.ForwardAt | streamlit-app/src/bledot_dash_src/supabase_data.py:400-407 | entry k of the loop's list is bucket k's summary |
| Power.HistoryOf | streamlit-app/src/bledot_dash_src/supabase_data.py:400-411 | succeeds iff every bucket is non-empty and numeric; the three lists have one entry per bucket; position n-1-k holds bucket k's readings' mean and its minimum and maximum readings (the lists are reversed) |
| Power.NumericReadingsGiveHistory | streamlit-app/src/bledot_dash_src/supabase_data.py:394-411 | when every reading is a number or null, the history step cannot fail and has one point per rank |
| PacketLoss.CellMean | streamlit-app/src/bledot_dash_src/supabase_data.py:286-288 | the inner mean of a list is its mean, of an empty list NaN, of a number itself, of a bool 1 or 0; null, strings and Timestamps raise |
| PacketLoss.RowMeans | streamlit-app/src/bledot_dash_src/supabase_data.py:338-340 | the per-row means raise iff some cell cannot be averaged, and otherwise list each row's own mean in order |
| PacketLoss.PacketLossMean | streamlit-app/src/bledot_dash_src/company_dashes/software.py:75-77 | raises iff the column is missing or a cell cannot be averaged; is a number iff there are rows and none is NaN; that number is the mean of the per-row means, so it lies between the smallest and largest of them |
| PacketLoss.PacketLossIsMeanOfListMeans | streamlit-app/src/bledot_dash_src/company_dashes/software.py:75-77 | for every frame whose rows carry non-empty loss lists, the figure is the mean of the lists' means |
| PacketLoss.PacketLossEqualLengths | streamlit-app/src/bledot_dash_src/company_dashes/software.py:75-77 | for every frame whose loss lists share one non-zero length, the figure is the plain mean of all samples pooled |
| PacketLoss.EqualLengthsMeanIsPooledMean | streamlit-app/src/bledot_dash_src/company_dashes/software.py:75-77 | with lists of one common length the mean of means equals the pooled mean |
| PacketLoss.TwoLevelExample | streamlit-app/src/bledot_dash_src/company_dashes/software.py:75-77 | rows [2, 4] and [10] give 6.5, while the pooled mean is 16/3: the figure is not the pooled mean |
| Config.ExtractAsWrittenOf | streamlit-app/src/bledot_dash_src/supabase_data.py:151-168 | as written: succeeds iff every field is a column with a non-null row-0 cell and then reports the row-0 cells; otherwise raises KeyError for the first failing field (its name if the column is missing, else label 0) |
| Config.ExtractOf | streamlit-app/src/bledot_dash_src/supabase_data.py:151-168 | as intended: raises only for the first missing column; each field is its first non-null cell, and None iff the field is null in every row |
| Config.AsWrittenAgreesWhenItSucceeds | streamlit-app/src/bledot_dash_src/supabase_data.py:160-166 | whenever the code as written succeeds, it returns what the intended extractor returns |
| Config.UniformRowsRoundTrip | streamlit-app/src/bledot_dash_src/supabase_data.py:160-166 | rows that all carry one configuration give back that configuration (intended extractor) |
| Config.NullFirstRowRaises | streamlit-app/src/bledot_dash_src/supabase_data.py:161-166 | a field null in row 0 and set in row 1 makes the code as written raise KeyError(0), while the intended extractor reports row 1's value |
| Config.NullFirstRowCounterexample | streamlit-app/src/bledot_dash_src/supabase_data.py:152-166 | the concrete two-row machine whose first row lacks a host name: raise as written, "pc-01" as intended |
| Assembler.Derive | streamlit-app/src/bledot_dash_src/supabase_data.py:312-354 | a payload is produced iff the collection times convert and the detector, the power history, the packet-loss mean and the extractor all succeed; then its kpi, history, packet-loss figure, issue map and configuration are exactly those helpers' answers on the rows' frame; the history has one point per rank, the issue map lists exactly the violations, and as written every configuration field must be set in row 0; the kpi never reports the collection time, which the conversion has made a Timestamp |
| Assembler.MachineMetricsHistory | streamlit-app/src/bledot_dash_src/supabase_data.py:229-364 | a failed query gives the all-None payload; non-empty windowed rows are used, else up to five unfiltered rows, else the all-None payload; the kpi it hands back never reports the collection time |
| Assembler.NullFirstHostEmptiesPayload | streamlit-app/src/bledot_dash_src/supabase_data.py:342-364 | as written, a null host name in the first row in use turns the whole payload into all-None |
| Assembler.ClientMachines | streamlit-app/src/bledot_dash_src/supabase_data.py:180-193 | the machine frame holds the answer's rows, with registration and last-contact times made Timestamps, when the query succeeds and every such time converts; a failed query, no rows or a time that does not convert gives an empty frame |
| Assembler.ConvertedContactsCompare | streamlit-app/src/bledot_dash_src/supabase_data.py:180-193 | every last-contact cell of the machine frame can be compared with any cutoff |
| Assembler.LatestMetrics | streamlit-app/src/bledot_dash_src/supabase_data.py:196-227 | at most `limit` rows, a prefix of the ordered answer; empty iff there is no machine, no metric row, a query failed, or a collection time does not convert; each kept row has its collection time made a Timestamp, so the aggregator never reports that column |
| Assembler.ContactAfter | streamlit-app/src/bledot_dash_src/supabase_data.py:385-386 | a machine is active iff its last contact is a Timestamp strictly after the cutoff; a missing time is not active; any other cell, a raw number included, raises TypeError |
| Assembler.ActiveCount | streamlit-app/src/bledot_dash_src/supabase_data.py:385-387 | raises iff some last-contact cell cannot be compared; otherwise counts exactly the active rows, never more than the rows |
| Assembler.ClientSummaryStats | streamlit-app/src/bledot_dash_src/supabase_data.py:367-425 | empty registry gives the zero shell; a missing last-contact column raises KeyError; otherwise total is the machine count, active the count seen in the last 24 hours, offline the rest; the kpi, history and issue map are the aggregator's, the history step's and the detector's answers on the metric frame |
| Assembler.ConvertRow | streamlit-app/src/bledot_dash_src/supabase_data.py:60-73 | the listed time columns of a row are converted and every other cell is kept, with the same keys |
| Assembler.ConvertedTimesAreNotNumbers | streamlit-app/src/bledot_dash_src/supabase_data.py:86-88 | once converted, a time column holds no int or float, so the aggregator reports no average for it |
| Assembler.SummaryOmitsCollectionTime | streamlit-app/src/bledot_dash_src/supabase_data.py:218-221 | the summary built from the fetched frames has no average, maximum or minimum for the collection time |
| Assembler.NoMetricsGiveEmptyKpi | streamlit-app/src/bledot_dash_src/supabase_data.py:81-84 | with no metric rows the summary's three metric maps are all empty |
| Assembler.LoadClientDashboard | streamlit-app/src/bledot_dash_src/supabase_data.py:428-454 | no id from the argument or the session gives {}; otherwise it raises iff the summary raises or the export finds no collection-time column and none is cached; the bundle carries that id, the first company record or {}, the machine frame and latest metrics of the same answers, the summary computed from them, at most 100 metric rows, and a shell summary iff there are no machines |
| Assembler.DownloadCheck | streamlit-app/src/bledot_dash_src/download_metrics.py:13-20 | raises KeyError("data_coleta") iff no export is cached and the metric frame lacks the collection-time column |
| Assembler.NoMetricsNoDashboard | streamlit-app/src/bledot_dash_src/supabase_data.py:428-446 | without a cached export, a company with no latest metrics cannot load its dashboard |
| Charts.ColorsFor | streamlit-app/src/bledot_dash_src/charts.py:12-22 | the red pair iff the metric has an issue, the green pair otherwise |
| Charts.Frac | streamlit-app/src/bledot_dash_src/charts.py:25-29 | 0 for a degenerate range; otherwise the fraction t with start + t(end - start) = val |
| Charts.FracInvertsLerp | streamlit-app/src/bledot_dash_src/charts.py:25-29 | start maps to 0, end to 1, and the fraction inverts linear interpolation both ways |
| Charts.FracMonotone | streamlit-app/src/bledot_dash_src/charts.py:29 | for start < end the fraction preserves order |
| Charts.FracDifference | streamlit-app/src/bledot_dash_src/charts.py:29 | differences of fractions are differences of values over the range width (the map is affine) |
| Charts.Clamp | streamlit-app/src/bledot_dash_src/charts.py:49-51 | for start <= end the clamp lands in [start, end] and fixes values already there; a reversed range gives end |
| Charts.ClampIdempotent | streamlit-app/src/bledot_dash_src/charts.py:155-157 | clamping twice is clamping once |
| Charts.ClampMonotone | streamlit-app/src/bledot_dash_src/charts.py:49-51 | clamping preserves order |
| Charts.FracUnit | streamlit-app/src/bledot_dash_src/charts.py:56-58 | a value inside a proper range has its fraction in [0, 1] |
| Charts.GaugeBounds | streamlit-app/src/bledot_dash_src/charts.py:49-62 | for start < end all gauge fractions lie in [0, 1]; min <= max gives a non-negative arc, equal to the span over the range inside it |
| Charts.HsBarsBounds | streamlit-app/src/bledot_dash_src/charts.py:155-170 | for start <= end the min-max bar lies in the range and the background ends with it; min <= max gives a bar of non-negative length; the marker is one unit wide around the clamped value |
| Session.InitKey | streamlit-app/src/bledot_dash_src/session_state.py:5-15 | an absent key is stored and its value returned; a present key leaves the state alone and returns its value |
| Session.SetKey | streamlit-app/src/bledot_dash_src/session_state.py:17-24 | the key holds the new value and every other key is unchanged |
| Session.GetKey | streamlit-app/src/bledot_dash_src/session_state.py:27-39 | the stored value, or the default when the key is absent; no new state is produced |
| Session.InitIdempotent | streamlit-app/src/bledot_dash_src/session_state.py:12-15 | init twice is init once |
| Session.SetThenInit | streamlit-app/src/bledot_dash_src/session_state.py:12-24 | init after set returns the set value and changes nothing |
| Session.GetAfterSet | streamlit-app/src/bledot_dash_src/session_state.py:24-39 | get reads what set stored, and other keys read as before |
| CompanyDash.LoaderSession | streamlit-app/src/bledot_dash_src/supabase_data.py:413-446 | the loader adds the threshold table (the constructor's `init` at line 39), the issue map (when the summary was computed) and the metric export, each only where the session had nothing, since `get_download_data` hands back a stored export; every key already present keeps its value |
| CompanyDash.LoadedSeesStoredExport | streamlit-app/src/bledot_dash_src/download_metrics.py:13-15 | the loader counts the export as cached exactly when the session stores one and the rule keeps it, and falls back to the session's company id |
| CompanyDash.Reload | streamlit-app/pages/company_dash.py:119-125 | a reload fails iff the loader raises; otherwise the data is the loader's answer, stored under company_data with loaded_company_id the company id, and the session's keys are the old ones plus those two and the loader's writes |
| CompanyDash.ReloadInits | streamlit-app/src/bledot_dash_src/supabase_data.py:413-414 | a reload writes the threshold table and the issue map only where the session had none |
| CompanyDash.ReloadExport | streamlit-app/src/bledot_dash_src/download_metrics.py:13-15 | as written a stored export survives a reload unchanged, whichever company it was made for; without one (or when the rule drops it) the export is the new metric frame's |
| CompanyDash.ReloadKeepsOthers | streamlit-app/pages/company_dash.py:119-125 | a reload changes no key but company_data, loaded_company_id and download_data, apart from filling absent ones |
| CompanyDash.LoadCompanyData | streamlit-app/pages/company_dash.py:115-128 | reloads iff nothing is cached or the cache is another company's, with the loader run against the session; after a reload the session serves this company's data; otherwise state and data are the cached ones |
| CompanyDash.SecondLoadHitsCache | streamlit-app/pages/company_dash.py:115-128 | after a load, the same company is served from the cache whatever the queries would now answer |
| CompanyDash.StaleExportCounterexample | streamlit-app/src/bledot_dash_src/download_metrics.py:14-15 | a session holding company A's export that switches to company B (no machines) loads B's data and still stores A's export, which is not B's metric frame |
| CompanyDash.ExportFollowsCompany | streamlit-app/pages/company_dash.py:115-125 | when the stored export is dropped on a reload, the session's export is always that of the company just loaded |
| CompanyDash.AllIssues | streamlit-app/pages/company_dash.py:132-135 | a label is in the union iff some machine's set holds it |
| CompanyDash.UnionOfIssues | streamlit-app/pages/company_dash.py:132-136 | the loop over the machines collects exactly the union of their issue sets |
| CompanyDash.FirstColumn | streamlit-app/pages/company_dash.py:53-60 | the first candidate that is a column, or None iff no candidate is |
| CompanyDash.RunPage | streamlit-app/pages/company_dash.py:103-170 | data without machines offers only the password tab; with machines every tab is offered and "issues" holds the union of the summary's issue sets; `{}` as data raises KeyError("machines") |
| CompanyDash.NoMachinesOnlyPasswordTab | streamlit-app/pages/company_dash.py:164-170 | a company without machines is offered only "Alterar Senha" when an export is stored and kept; otherwise its empty metric frame makes the export raise KeyError("data_coleta") |
| Software.FirewallLabel | streamlit-app/src/bledot_dash_src/company_dashes/software.py:22-25 | "INATIVO" iff firewall_active is an issue, "ATIVO" otherwise |
| Software.IdleAmong | streamlit-app/src/bledot_dash_src/company_dashes/software.py:59-61 | a machine is idle iff both its click and its keypress rate are flagged |
| Software.IdleCount | streamlit-app/src/bledot_dash_src/company_dashes/software.py:57-61 | the loop counts exactly the idle machines, never more than the machines with issues |
| Passwords.Validate | streamlit-app/auth/user_db_manager.py:69-89 | no message iff all five checks pass; otherwise the message of the first failing check in order |
| Passwords.EightCharactersPass | streamlit-app/auth/user_db_manager.py:79-81 | a new password of exactly eight characters passes the length check |
| Passwords.ChangeOwnPassword | streamlit-app/auth/user_db_manager.py:6-33 | the update is issued iff connected and the current password verifies; a failed verification gives (False, "Senha atual incorreta") with no update; success iff the update matched |
| Passwords.SubmitForm | streamlit-app/auth/user_db_manager.py:69-103 | the change is attempted iff every check passes and a user is in the session; a failed check shows its message, a missing user "Usuário não encontrado na sessão" |

## Left out

- Database and network: the Supabase client, its creation and every query are left out. Each query's answer is a parameter. The company-id query and the machine query of the latest-metrics fetch read the same registry, so both use the one machine answer.
- Wall-clock time: `datetime.now` is the parameter `now`, in seconds.
- Timestamp conversion (`_convert_timestamps`): the parsing itself is left out. A time cell is taken to be a number of seconds already, or null for NaT. The conversion turns the number into a Timestamp (`Time`), which is neither an int nor a float. Any other cell counts as one that does not convert. The conversion runs inside each fetch's `try`, so such a cell gives an empty machine frame, an empty metric frame or the all-None history payload.
- Assembler.ContactAfter: a last-contact cell that is neither a Timestamp nor null raises TypeError, a raw number included. Frames built by Assembler.ClientMachines never hold one, as Assembler.ConvertedContactsCompare shows. The case is kept for summaries computed over other frames.
- Floating point: IEEE floats are reals. The one NaN the model needs is the mean of an empty packet-loss list. It appears as `None` and propagates to the overall figure.
- pandas NaN in numeric columns: the bucketer's test for a missing reading is modelled as the code's `is None` check on null cells. pandas would usually turn those nulls into NaN.
- Power.Summary: a list-valued power reading is treated as a TypeError. numpy would instead average equal-length lists into one scalar over all their elements, and would raise ValueError for lists of different lengths.
- Config.ExtractAsWrittenOf: the KeyError for a dropped row 0 carries the label as the string "0". In Python it is the integer 0.
- The loader's session writes (`metrics_threshold`, `machines_with_issues`, `download_data`) are modelled once, in CompanyDash.LoaderSession, where the page's session is. The assembler functions only return values.
- Assembler.LoadClientDashboard: the CSV export (`get_download_data`) is modelled only up to its first read of the collection-time column: an empty metric frame raises KeyError("data_coleta") unless an export is already cached. This covers a company with no machines. Whether an export is cached is a parameter here; the company page passes whether the session stores `download_data` (CompanyDash.Loaded). Formatting the times, writing the file, the bytes themselves and the Streamlit error messages are left out. The session entry names the metric frame a new export is made from.
- `check_session_state` is not part of this model. For `download_data` it is taken to hold exactly when the key is stored (a CSV export is never empty). The authentication redirect that uses it is left out.
- CompanyDash.RunPage: layout and rendering are left out. This covers the page title, which can raise when the company record lacks `nome_empresa`. It also covers the sidebar buttons and the per-tab dashboards.
- In `software.py`, the loop variable `issues` shadows the page's issue set. That only changes the colour of a later card and is not modelled.
- Passwords.ChangeOwnPassword: password hashing and the current-password check are foreign calls. The check's answer is a parameter. An exception's message is represented by its fixed prefix only.

## Findings

| source | as written | input that shows it | evidently intended | confidence | as-written member | corrected member |
|---|---|---|---|---|---|---|
| streamlit-app/src/bledot_dash_src/supabase_data.py:160-166 | the branch that stores None has no `else`, and `metric_series[0]` is a label lookup after `dropna`, so any field whose row 0 is null raises KeyError(0); in the history payload the exception becomes the all-None payload | two rows for one machine, the first with a null `host_name`, the second with `host_name = "pc-01"` and every other field set | each field is its first non-null value, and None when the field is null in every row | high (not executed) | Config.NullFirstRowCounterexample | Config.ExtractOf |
| streamlit-app/src/bledot_dash_src/download_metrics.py:14-15 | a stored export is returned as is, and neither a reload for another company nor logout removes it, so the page goes on offering the first company's metrics | a session holding company A's export reloads for company B | each company's page offers that company's export | medium (not executed) | CompanyDash.StaleExportCounterexample | CompanyDash.ExportFollowsCompany |

=== FILE: assembler.dfy ===
/** The assemblers of `SupabaseData`: the per-machine history payload
    (`get_machine_metrics_history`), the company summary
    (`get_client_summary_stats`) and the dashboard bundle
    (`load_client_dashboard_data`). Database answers and the clock are
    parameters: a fetch is a `Result` of rows, already filtered and ordered
    by the database, and `now` is a Unix time in seconds. */
module Assembler {
  import opened Frames
  import opened MetricsKpi
  import opened Issues
  import opened Power
  import opened PacketLoss
  import opened Config

  /** Which configuration extractor the history payload runs: the code as
      written, or the evidently intended one. */
  datatype ConfigRule = AsWritten | Intended

  function ConfigOf(f: Frame, rule: ConfigRule): Result<ConfigMap> {
    match rule
    case AsWritten => ExtractAsWritten(f)
    case Intended => Extract(f)
  }

  /** The seven-key payload of `get_machine_metrics_history`: every key None,
      or all of them computed from one batch of rows. */
  datatype MachineHistory =
    | NoData
    | MachineData(kpi: Kpi, power: History, pkgLoss: Option<real>, issues: IssueMap, config: ConfigMap)

  /** The rows of the windowed query are used when there are any, and
      otherwise the first five rows of the unfiltered query. */
  const FallbackLimit: nat := 5

  /** The frame the history payload works on: the rows with their
      collection times converted to Timestamps. */
  function Collected(rows: seq<Row>): Frame {
    FromRecords(ConvertTimes(rows, {CollectedAt}))
  }

  /** The payload computed from one batch of rows; the whole computation,
      starting with the conversion of the collection times, sits inside one
      `try`, so any exception yields the all-None payload. */
  function Derive(rows: seq<Row>, rule: ConfigRule): (r: MachineHistory)
    ensures var f := Collected(rows);
      r.MachineData? <==> (&& TimesConvert(rows, {CollectedAt})
                           && Report(f).Ok? && PowerHistory(f).Ok? && PacketLossMean(f).Ok? && ConfigOf(f, rule).Ok?)
    ensures r.MachineData? ==> |r.power.avg| == |r.power.min| == |r.power.max| == Depth(Collected(rows).rows)
    ensures r.MachineData? ==> forall m, l :: Has(r.issues, m, l) <==> Violates(Collected(rows), m, l)
    ensures r.MachineData? ==> forall m :: m in r.issues ==> r.issues[m] != {} && r.issues[m] <= Labels()
    // the code as written only yields a payload when row 0 holds every configuration field
    ensures r.MachineData? && rule == AsWritten ==> forall c :: c in ConfigFields ==> ReadableAsWritten(Collected(rows), c)
    // each part of the payload is the matching helper's answer on the same frame
    ensures r.MachineData? ==> var f := Collected(rows);
      && r.kpi == Aggregate(f, 0.0) && r.power == PowerHistory(f).value
      && r.pkgLoss == PacketLossMean(f).value && r.issues == Report(f).value
      && r.config == ConfigOf(f, rule).value
    // the collection time is a Timestamp, never a kpi figure
    ensures r.MachineData? ==> CollectedAt !in r.kpi.avg && CollectedAt !in r.kpi.max && CollectedAt !in r.kpi.min
  {
    if !TimesConvert(rows, {CollectedAt}) then NoData
    else
      var f := Collected(rows);
      var kpi := Aggregate(f, 0.0);
      ConvertedTimesAreNotNumbers(rows, {CollectedAt}, CollectedAt);
      match Report(f)
      case Raise(_) => NoData
      case Ok(issues) =>
        match PowerHistory(f)
        case Raise(_) => NoData
        case Ok(power) =>
          assert |Buckets(f).value| == Depth(f.rows);
          match PacketLossMean(f)
          case Raise(_) => NoData
          case Ok(loss) =>
            match ConfigOf(f, rule)
            case Raise(_) => NoData
            case Ok(config) => MachineData(kpi, power, loss, issues, config)
  }

  /** `get_machine_metrics_history`, which only chooses the batch of rows and
      hands it to `Derive`: a failed query gives the all-None payload;
      otherwise the windowed rows are used when there are any, then up to
      five unfiltered rows, and with neither the all-None payload. */
  function MachineMetricsHistory(unfiltered: Result<seq<Row>>, windowed: Result<seq<Row>>, rule: ConfigRule): (r: MachineHistory)
    ensures unfiltered.Raise? || windowed.Raise? ==> r == NoData
    ensures unfiltered.Ok? && windowed.Ok? && |windowed.value| > 0 ==> r == Derive(windowed.value, rule)
    ensures unfiltered.Ok? && windowed.Ok? && |windowed.value| == 0 ==>
      r == (if |unfiltered.value| > 0 then Derive(Take(unfiltered.value, FallbackLimit), rule) else NoData)
    // a payload always comes from a non-empty batch of at most five rows or from the windowed rows
    ensures r.MachineData? ==> windowed.Ok? && unfiltered.Ok? && (|windowed.value| > 0 || |unfiltered.value| > 0)
    // its figures never include the collection time
    ensures r.MachineData? ==> CollectedAt !in r.kpi.avg && CollectedAt !in r.kpi.max && CollectedAt !in r.kpi.min
  {
    if unfiltered.Raise? || windowed.Raise? then NoData
    else if |windowed.value| > 0 then Derive(windowed.value, rule)
    else if |unfiltered.value| > 0 then Derive(Take(unfiltered.value, FallbackLimit), rule)
    else NoData
  }

  /** The configuration bug reaches the payload: when the rows in use have a
      null host name in their first row, the code as written returns the
      all-None payload, however good the other rows are. */
  lemma NullFirstHostEmptiesPayload(unfiltered: Result<seq<Row>>, windowed: seq<Row>)
    requires unfiltered.Ok? && |windowed| > 0
    requires Get(windowed[0], ConfigFields[0]) == Null
    ensures MachineMetricsHistory(unfiltered, Ok(windowed), AsWritten) == NoData
  {
    assert ConfigFields[0] in ConfigFields;
    assert Collected(windowed).Cell(0, ConfigFields[0]) == Null;
  }

  /** `pd.to_datetime` accepts the cell: a time (in seconds) or null (NaT).
      Any other cell makes the conversion raise. */
  predicate Convertible(v: Value) {
    v.Num? || v.Null?
  }

  /** The converted cell: a number of seconds becomes a Timestamp, and null
      stays null (NaT). */
  function ToTime(v: Value): (w: Value)
    ensures v.Num? ==> w == Time(v.x)
    ensures !v.Num? ==> w == v
    ensures NumericValue(w).Some? ==> !v.Num? && NumericValue(w) == NumericValue(v)
  {
    if v.Num? then Time(v.x) else v
  }

  /** `_convert_timestamps` on one row: the cells of `cs` are converted, the
      others are kept. */
  function ConvertRow(row: Row, cs: set<string>): (r: Row)
    ensures r.Keys == row.Keys
    ensures forall c :: Get(r, c) == (if c in cs then ToTime(Get(row, c)) else Get(row, c))
  {
    map c | c in row :: if c in cs then ToTime(row[c]) else row[c]
  }

  /** `_convert_timestamps` on every row. */
  function ConvertTimes(rows: seq<Row>, cs: set<string>): (r: seq<Row>)
    ensures |r| == |rows| && forall i :: 0 <= i < |rows| ==> r[i] == ConvertRow(rows[i], cs)
  {
    seq(|rows|, i requires 0 <= i < |rows| => ConvertRow(rows[i], cs))
  }

  /** A converted time column holds no number, so the aggregator never
      reports it. */
  lemma ConvertedTimesAreNotNumbers(rows: seq<Row>, cs: set<string>, c: string)
    requires TimesConvert(rows, cs) && c in cs
    ensures !HasNumeric(FromRecords(ConvertTimes(rows, cs)), c)
    ensures c !in Aggregate(FromRecords(ConvertTimes(rows, cs)), 0.0).avg
  {
    var f := FromRecords(ConvertTimes(rows, cs));
    forall i | 0 <= i < |f.rows| ensures NumericValue(f.Cell(i, c)).None? {
      assert f.Cell(i, c) == ToTime(Get(rows[i], c));
    }
    if |rows| == 0 {
      assert f.columns == {};
    }
  }

  /** Every row's cell in each of `cs` can be converted to a time. */
  predicate TimesConvert(rows: seq<Row>, cs: set<string>) {
    forall i, c :: 0 <= i < |rows| && c in cs ==> Convertible(Get(rows[i], c))
  }

  /** The columns `get_client_machines` converts to times. */
  const MachineTimes: set<string> := {"data_registro", LastContact}

  /** The column `get_latest_metrics_by_client` converts to times. */
  const CollectedAt: string := "data_coleta"

  /** `get_client_machines`: a failed or empty answer is an empty frame, and
      so is an answer whose times do not convert, since the conversion runs
      inside the same `try`. */
  function ClientMachines(src: Result<seq<Row>>): (f: Frame)
    ensures |f.rows| > 0 <==> src.Ok? && |src.value| > 0 && TimesConvert(src.value, MachineTimes)
    ensures src.Ok? && TimesConvert(src.value, MachineTimes) ==> f.rows == ConvertTimes(src.value, MachineTimes)
    ensures src.Raise? || !TimesConvert(src.value, MachineTimes) ==> f.Empty()
    ensures |f.rows| > 0 ==> f == FromRecords(f.rows)
  {
    if src.Raise? || |src.value| == 0 || !TimesConvert(src.value, MachineTimes) then Frame({}, [])
    else FromRecords(ConvertTimes(src.value, MachineTimes))
  }

  /** After the conversion every last-contact cell of the machine frame is a
      time or NaT, so the active count never meets a cell it cannot compare. */
  lemma ConvertedContactsCompare(src: Result<seq<Row>>, cutoff: int)
    ensures forall j :: 0 <= j < |ClientMachines(src).rows| ==>
      ContactAfter(ClientMachines(src).Cell(j, LastContact), cutoff).Ok?
  {
    var f := ClientMachines(src);
    forall j | 0 <= j < |f.rows| ensures ContactAfter(f.Cell(j, LastContact), cutoff).Ok? {
      assert LastContact in MachineTimes;
      assert f.Cell(j, LastContact) == ToTime(Get(src.value[j], LastContact));
    }
  }

  /** `get_latest_metrics_by_client`: the newest `limit` metric rows of the
      company's machines; empty when the company has no machine, either
      query fails or a collection time of those rows does not convert. */
  function LatestMetrics(machines: Result<seq<Row>>, metrics: Result<seq<Row>>, limit: nat): (f: Frame)
    ensures |f.rows| <= limit
    ensures |f.rows| > 0 <==> (&& machines.Ok? && |machines.value| > 0 && metrics.Ok? && |metrics.value| > 0 && limit > 0
                              && TimesConvert(Take(metrics.value, limit), {CollectedAt}))
    ensures |f.rows| > 0 ==> (&& f == FromRecords(f.rows) && metrics.Ok? && |f.rows| <= |metrics.value|
                              && forall i :: 0 <= i < |f.rows| ==> f.rows[i] == ConvertRow(metrics.value[i], {CollectedAt}))
    // the collection time is a Timestamp, never a kpi figure
    ensures CollectedAt !in Aggregate(f, 0.0).avg
  {
    if machines.Raise? || |machines.value| == 0 || metrics.Raise? then Frame({}, [])
    else
      var rows := Take(metrics.value, limit);
      if |rows| == 0 || !TimesConvert(rows, {CollectedAt}) then Frame({}, [])
      else
        ConvertedTimesAreNotNumbers(rows, {CollectedAt}, CollectedAt);
        Collected(rows)
  }

  /** The column holding a machine's last contact time. */
  const LastContact: string := "ultimo_contato"

  /** Twenty-four hours, in seconds. */
  const DaySeconds: int := 86400

  /** `ultimo_contato > cutoff` for one machine: a missing time (NaT) compares
      false, and a cell that is not a Timestamp cannot be compared with one. */
  function ContactAfter(v: Value, cutoff: int): (r: Result<bool>)
    ensures r.Ok? <==> v.Time? || v.Null?
    ensures r == Ok(true) <==> v.Time? && v.t > cutoff as real
  {
    match v
    case Time(t) => Ok(t > cutoff as real)
    case Null => Ok(false)
    case _ => Raise(TypeError)
  }

  /** The rows from `i` on whose last contact is after the cutoff. */
  ghost function ActiveRows(f: Frame, cutoff: int, i: nat): set<nat> {
    set j: nat | i <= j < |f.rows| && ContactAfter(f.Cell(j, LastContact), cutoff) == Ok(true)
  }

  /** The number of active machines among rows `i..`, raising on the first
      cell that cannot be compared. */
  function ActiveCount(f: Frame, cutoff: int, i: nat): (r: Result<nat>)
    requires i <= |f.rows|
    ensures r.Ok? <==> forall j :: i <= j < |f.rows| ==> ContactAfter(f.Cell(j, LastContact), cutoff).Ok?
    ensures r.Ok? ==> r.value == |ActiveRows(f, cutoff, i)| <= |f.rows| - i
    decreases |f.rows| - i
  {
    if i == |f.rows| then
      assert ActiveRows(f, cutoff, i) == {};
      Ok(0)
    else
      match ContactAfter(f.Cell(i, LastContact), cutoff)
      case Raise(e) => Raise(e)
      case Ok(b) =>
        match ActiveCount(f, cutoff, i + 1)
        case Raise(e) => Raise(e)
        case Ok(n) =>
          if b then
            assert ActiveRows(f, cutoff, i) == {i} + ActiveRows(f, cutoff, i + 1);
            Ok(n + 1)
          else
            assert ActiveRows(f, cutoff, i) == ActiveRows(f, cutoff, i + 1);
            Ok(n)
  }

  /** The summary: the zero shell for a company without machines, otherwise
      the machine counts and the derived metrics of its latest rows. */
  datatype ClientSummary =
    | Shell
    | Stats(total: nat, active: nat, offline: nat, kpi: Kpi, power: History, issues: IssueMap)

  /** `get_client_summary_stats`, with the company's machine frame and metric
      frame already fetched. Nothing here is inside a `try`, so exceptions
      reach the caller. */
  function ClientSummaryStats(machines: Frame, metrics: Frame, now: int): (r: Result<ClientSummary>)
    ensures machines.Empty() ==> r == Ok(Shell)
    ensures !machines.Empty() ==> (r.Ok? <==>
      && LastContact in machines.columns
      && (forall j :: 0 <= j < |machines.rows| ==> ContactAfter(machines.Cell(j, LastContact), now - DaySeconds).Ok?)
      && PowerHistory(metrics).Ok? && Report(metrics).Ok?)
    ensures !machines.Empty() && LastContact !in machines.columns ==> r == Raise(KeyError(LastContact))
    ensures r.Ok? && !machines.Empty() ==> r.value.Stats?
    // active counts the machines seen within the last 24 hours; the rest are offline
    ensures r.Ok? && r.value.Stats? ==>
      && r.value.total == |machines.rows|
      && r.value.active == |ActiveRows(machines, now - DaySeconds, 0)|
      && r.value.active <= r.value.total
      && r.value.offline == r.value.total - r.value.active
    ensures r.Ok? && r.value.Stats? ==> |r.value.power.avg| == Depth(metrics.rows)
    ensures r.Ok? && r.value.Stats? ==> forall m, l :: Has(r.value.issues, m, l) <==> Violates(metrics, m, l)
    // the figures are the helpers' answers on the metric frame
    ensures r.Ok? && r.value.Stats? ==>
      && r.value.kpi == Aggregate(metrics, 0.0)
      && r.value.power == PowerHistory(metrics).value
      && r.value.issues == Report(metrics).value
  {
    if machines.Empty() then Ok(Shell)
    else if LastContact !in machines.columns then Raise(KeyError(LastContact))
    else
      var cutoff := now - DaySeconds;
      match ActiveCount(machines, cutoff, 0)
      case Raise(e) => Raise(e)
      case Ok(active) =>
        match Buckets(metrics)
        case Raise(e) => Raise(e)
        case Ok(bs) =>
          var kpi := Aggregate(metrics, 0.0);
          match HistoryOf(bs)
          case Raise(e) => Raise(e)
          case Ok(power) =>
            match Report(metrics)
            case Raise(e) => Raise(e)
            case Ok(issues) =>
              var total := |machines.rows|;
              Ok(Stats(total, active, total - active, kpi, power, issues))
  }

  /** The summary of the fetched frames never reports the collection time,
      which the metric fetch has turned into Timestamps. */
  lemma SummaryOmitsCollectionTime(machines: Result<seq<Row>>, metrics: Result<seq<Row>>, now: int)
    ensures var r := ClientSummaryStats(ClientMachines(machines), LatestMetrics(machines, metrics, MetricsLimit), now);
      r.Ok? && r.value.Stats? ==> CollectedAt !in r.value.kpi.avg && CollectedAt !in r.value.kpi.max && CollectedAt !in r.value.kpi.min
  {
    var latest := LatestMetrics(machines, metrics, MetricsLimit);
    if latest.Empty() {
      assert Aggregate(latest, 0.0).avg.Keys == latest.columns;
    }
  }

  /** With no metric rows the aggregator of the summary reports nothing. */
  lemma NoMetricsGiveEmptyKpi()
    ensures Aggregate(FromRecords([]), 0.0) == Kpi(map[], map[], map[])
  {
    var f := FromRecords([]);
    assert f.columns == {};
  }

  /** The bundle `load_client_dashboard_data` returns. */
  datatype Dashboard = Dashboard(clientInfo: Row, machines: Frame, latestMetrics: Frame, summary: ClientSummary, clientId: string)

  /** The newest metric rows the dashboard keeps. */
  const MetricsLimit: nat := 100

  /** `get_download_data` up to the CSV it writes: a cached export is
      reused; otherwise the metric frame's collection-time column is read,
      and a frame without it raises. `cached` is the session's answer to
      whether an export is stored. */
  function DownloadCheck(cached: bool, metrics: Frame): (r: Result<()>)
    ensures r.Raise? <==> !cached && CollectedAt !in metrics.columns
    ensures r.Raise? ==> r.exc == KeyError(CollectedAt)
  {
    if cached || CollectedAt in metrics.columns then Ok(()) else Raise(KeyError(CollectedAt))
  }

  /** `load_client_dashboard_data`: with no usable id, from the argument or
      else from the session, the result is `{}` (here `None`); otherwise the
      company record (the first match, or `{}`), its machines, its latest
      metrics and its summary. The summary may raise, and so may the export
      of the latest metrics when none is cached. */
  function LoadClientDashboard(
    clientId: Option<string>, sessionCompanyId: Option<string>,
    clients: Result<seq<Row>>, machines: Result<seq<Row>>, metrics: Result<seq<Row>>, now: int,
    downloadCached: bool
  ): (r: Result<Option<Dashboard>>)
    ensures !Truthy(clientId) && !Truthy(sessionCompanyId) ==> r == Ok(None)
    ensures Truthy(clientId) || Truthy(sessionCompanyId) ==>
      (r.Ok? <==> (&& ClientSummaryStats(ClientMachines(machines), LatestMetrics(machines, metrics, MetricsLimit), now).Ok?
                   && DownloadCheck(downloadCached, LatestMetrics(machines, metrics, MetricsLimit)).Ok?))
    ensures r.Ok? ==> (r.value.Some? <==> Truthy(clientId) || Truthy(sessionCompanyId))
    // the bundle holds the helpers' answers to the same queries
    ensures r.Ok? && r.value.Some? ==> var d := r.value.value;
      && d.clientId == (if Truthy(clientId) then clientId.value else sessionCompanyId.value)
      && d.clientInfo == (if clients.Ok? && |clients.value| > 0 then clients.value[0] else map[])
      && d.machines == ClientMachines(machines)
      && d.latestMetrics == LatestMetrics(machines, metrics, MetricsLimit)
      && Ok(d.summary) == ClientSummaryStats(d.machines, d.latestMetrics, now)
      && |d.latestMetrics.rows| <= MetricsLimit
      && (d.machines.Empty() <==> d.summary.Shell?)
    // the summary's figures never include the collection time
    ensures r.Ok? && r.value.Some? && r.value.value.summary.Stats? ==> CollectedAt !in r.value.value.summary.kpi.avg
  {
    var id := if Truthy(clientId) then clientId else sessionCompanyId;
    if !Truthy(id) then Ok(None)
    else
      var info := if clients.Ok? && |clients.value| > 0 then clients.value[0] else map[];
      var machineFrame := ClientMachines(machines);
      var latest := LatestMetrics(machines, metrics, MetricsLimit);
      match ClientSummaryStats(machineFrame, latest, now)
      case Raise(e) => Raise(e)
      case Ok(summary) =>
        match DownloadCheck(downloadCached, latest)
        case Raise(e) => Raise(e)
        case Ok(_) => Ok(Some(Dashboard(info, machineFrame, latest, summary, id.value)))
  }

  /** Without a cached export, a company whose latest metrics are empty (no
      machines, no rows, or a failed query) cannot load its dashboard. */
  lemma NoMetricsNoDashboard(
    clientId: Option<string>, sessionCompanyId: Option<string>,
    clients: Result<seq<Row>>, machines: Result<seq<Row>>, metrics: Result<seq<Row>>, now: int)
    requires Truthy(clientId) || Truthy(sessionCompanyId)
    requires LatestMetrics(machines, metrics, MetricsLimit).rows == []
    ensures LoadClientDashboard(clientId, sessionCompanyId, clients, machines, metrics, now, false).Raise?
  {
    var latest := LatestMetrics(machines, metrics, MetricsLimit);
    assert latest == Frame({}, []);
  }
}

=== FILE: charts.dfy ===
/** The arithmetic behind the dashboard's charts: the colour pair chosen by
    issue membership, the fraction of a gauge, and the clamping of values
    into a chart's range. The chart objects themselves are not modelled. */
module Charts {

  /** A (value colour, average colour) pair. */
  datatype Colors = Colors(val: string, avg: string)

  const Good: Colors := Colors("#68e39c", "#02ad4a")
  const Bad: Colors := Colors("#ff6759", "#d41604")

  /** `get_colors(label, issues)`: the red pair for a metric name with an issue,
      the green pair otherwise. */
  function ColorsFor(name: string, issues: set<string>): (r: Colors)
    ensures r == Bad <==> name in issues
    ensures r == Good <==> name !in issues
  {
    if name in issues then Bad else Good
  }

  /** `frac_val(val, start, end)`: where `val` sits between `start` (0) and
      `end` (1); a degenerate range gives 0. */
  function Frac(val: real, start: real, end: real): (r: real)
    ensures start == end ==> r == 0.0
    ensures start != end ==> start + r * (end - start) == val
  {
    if start == end then 0.0 else (val - start) / (end - start)
  }

  /** The point at fraction `t` of the way from `start` to `end`. */
  function Lerp(t: real, start: real, end: real): real {
    start + t * (end - start)
  }

  /** The ends of the range map to 0 and 1, and `Frac` undoes `Lerp`, so
      `Frac` is the affine map sending `start` to 0 and `end` to 1. */
  lemma FracInvertsLerp(t: real, start: real, end: real)
    requires start != end
    ensures Frac(start, start, end) == 0.0
    ensures Frac(end, start, end) == 1.0
    ensures Frac(Lerp(t, start, end), start, end) == t
    ensures Lerp(Frac(t, start, end), start, end) == t
  {
    var d := end - start;
    assert d / d == 1.0;
    assert (t * d) / d == t;
    assert start + ((t - start) / d) * d == t;
  }

  /** `Frac` preserves the order of values when `start < end`. */
  lemma FracMonotone(x: real, y: real, start: real, end: real)
    requires start < end && x <= y
    ensures Frac(x, start, end) <= Frac(y, start, end)
  {
    FracDifference(x, y, start, end);
  }

  /** Differences of fractions are differences of values, scaled by the range. */
  lemma FracDifference(x: real, y: real, start: real, end: real)
    requires start != end
    ensures Frac(y, start, end) - Frac(x, start, end) == (y - x) / (end - start)
  {
    var d := end - start;
    assert (y - start) / d - (x - start) / d == ((y - start) - (x - start)) / d;
  }

  /** `min(max(v, start), end)`. */
  function Clamp(v: real, start: real, end: real): (r: real)
    ensures start <= end ==> start <= r <= end
    ensures start <= v <= end ==> r == v
    ensures start > end ==> r == end
  {
    var lifted := if v >= start then v else start;
    if lifted <= end then lifted else end
  }

  /** Clamping twice is clamping once. */
  lemma ClampIdempotent(v: real, start: real, end: real)
    requires start <= end
    ensures Clamp(Clamp(v, start, end), start, end) == Clamp(v, start, end)
  {
  }

  /** Clamping preserves the order of values. */
  lemma ClampMonotone(x: real, y: real, start: real, end: real)
    requires x <= y
    ensures Clamp(x, start, end) <= Clamp(y, start, end)
  {
  }

  /** The three fractions of a speed gauge and the width of its range arc. */
  datatype Gauge = Gauge(fracMin: real, fracAvg: real, fracMax: real, width: real)

  /** The numbers `create_speed_chart` draws: the value, minimum and maximum
      are clamped into [start, end] and then turned into fractions. */
  function SpeedGauge(val: real, start: real, end: real, lo: real, hi: real): Gauge {
    var v, mn, mx := Clamp(val, start, end), Clamp(lo, start, end), Clamp(hi, start, end);
    Gauge(Frac(mn, start, end), Frac(v, start, end), Frac(mx, start, end), Frac(mx, start, end) - Frac(mn, start, end))
  }

  /** A proper range puts every fraction of the gauge in [0, 1]; an ordered
      minimum and maximum never give a negative arc, and inside the range the
      arc is the min-max span as a fraction of the range. */
  lemma GaugeBounds(val: real, start: real, end: real, lo: real, hi: real)
    ensures var g := SpeedGauge(val, start, end, lo, hi);
      && (start < end ==> 0.0 <= g.fracMin <= 1.0 && 0.0 <= g.fracAvg <= 1.0 && 0.0 <= g.fracMax <= 1.0)
      && (lo <= hi ==> g.width >= 0.0)
      && (start < end && start <= lo <= hi <= end ==> g.width == (hi - lo) / (end - start))
  {
    var v, mn, mx := Clamp(val, start, end), Clamp(lo, start, end), Clamp(hi, start, end);
    if start < end {
      FracUnit(mn, start, end);
      FracUnit(v, start, end);
      FracUnit(mx, start, end);
      if lo <= hi {
        ClampMonotone(lo, hi, start, end);
        FracMonotone(mn, mx, start, end);
      }
      FracDifference(mn, mx, start, end);
    }
  }

  /** A value inside the range has a fraction in [0, 1]. */
  lemma FracUnit(x: real, start: real, end: real)
    requires start < end && start <= x <= end
    ensures 0.0 <= Frac(x, start, end) <= 1.0
  {
    FracMonotone(start, x, start, end);
    FracMonotone(x, end, start, end);
    FracInvertsLerp(0.0, start, end);
  }

  /** The bars `create_hsbar_chart` draws, from the clamped value, minimum and
      maximum: the background bar, the min-max bar and a marker one unit wide
      around the value. */
  datatype Bars = Bars(backgroundEnd: real, rangeStart: real, rangeEnd: real, markerStart: real, markerEnd: real)

  /** The default range of the horizontal bar. */
  const BarStart: real := 0.0
  const BarEnd: real := 100.0

  /** `create_hsbar_chart`'s bars. */
  function HsBars(val: real, lo: real, hi: real, start: real, end: real): Bars {
    var v, mn, mx := Clamp(val, start, end), Clamp(lo, start, end), Clamp(hi, start, end);
    Bars(mx, mn, mx, v - 0.5, v + 0.5)
  }

  /** With an ordered range every bar lies inside it and the background ends
      where the min-max bar ends; an ordered minimum and maximum give a bar
      of non-negative length; the marker is centred on the clamped value. */
  lemma HsBarsBounds(val: real, lo: real, hi: real, start: real, end: real)
    ensures var b := HsBars(val, lo, hi, start, end);
      && (start <= end ==> start <= b.rangeStart <= end && start <= b.rangeEnd <= end && b.backgroundEnd == b.rangeEnd)
      && (lo <= hi ==> b.rangeStart <= b.rangeEnd)
      && b.markerEnd - b.markerStart == 1.0
      && (start <= end ==> start <= (b.markerStart + b.markerEnd) / 2.0 <= end)
  {
    if lo <= hi {
      ClampMonotone(lo, hi, start, end);
    }
  }
}

=== FILE: company_dash.dfy ===
/** The company page (`pages/company_dash.py`): when the company's data is
    reloaded into the session, the union of all machines' issues, the choice
    of the machine label column, and the tabs offered. */
module CompanyDash {
  import opened Frames
  import opened Issues
  import opened Assembler
  import opened Session

  /** The values the page keeps in the session. */
  datatype Slot =
    | Absent                              // Python None
    | Text(s: string)                     // an id or a tab name
    | CompanyData(data: Option<Dashboard>) // `{}` is `None`
    | IssueLabels(labels: set<string>)
    | Thresholds(table: seq<(string, Threshold)>) // `metrics_threshold`
    | MachineIssues(issues: IssueMap)            // `machines_with_issues`
    | MetricsCsv(of: Frame)                      // `download_data`: the CSV export of a metric frame

  const CompanyDataKey: string := "company_data"
  const LoadedIdKey: string := "loaded_company_id"
  const IssuesKey: string := "issues"
  const CompanyIdKey: string := "company_id"
  const ThresholdsKey: string := "metrics_threshold"
  const IssueMapKey: string := "machines_with_issues"
  const DownloadKey: string := "download_data"

  /** The page reloads when nothing is cached yet or the cache belongs to
      another company (a missing `loaded_company_id` reads as None). */
  predicate NeedsReload(st: State<Slot>, companyId: Slot) {
    CompanyDataKey !in st || GetKey(st, LoadedIdKey, Absent) != companyId
  }

  /** The database's answers to the loader's queries, and the clock. */
  datatype Queries = Queries(clients: Result<seq<Row>>, machines: Result<seq<Row>>, metrics: Result<seq<Row>>, now: int)

  /** A session value as a company id: only a string is one. */
  function IdOf(v: Slot): Option<string> {
    if v.Text? then Some(v.s) else None
  }

  /** What a reload does with a stored export. `KeepStored` is the code as
      written: `get_download_data` hands back whatever export the session
      holds, whichever company it was made for. `PerCompany` drops the stored
      export before loading another company (see Findings). */
  datatype ExportRule = KeepStored | PerCompany

  /** The session the loader sees under `rule`. */
  function BeforeLoad(st: State<Slot>, rule: ExportRule): (r: State<Slot>)
    ensures r.Keys == (if rule.PerCompany? then st.Keys - {DownloadKey} else st.Keys)
    ensures forall k :: k in r ==> r[k] == st[k]
  {
    if rule.PerCompany? then st - {DownloadKey} else st
  }

  /** `load_client_dashboard_data(company_id)` run against session `st`: the
      id falls back to the session's `company_id`, and the export counts as
      cached when the session holds one. */
  function Loaded(st: State<Slot>, companyId: Slot, q: Queries): Result<Option<Dashboard>> {
    LoadClientDashboard(IdOf(companyId), IdOf(GetKey(st, CompanyIdKey, Absent)),
      q.clients, q.machines, q.metrics, q.now, DownloadKey in st)
  }

  /** The loader sees a cached export exactly when the session keeps one
      and the rule keeps it, and it reads the same session company id. */
  lemma LoadedSeesStoredExport(st: State<Slot>, companyId: Slot, q: Queries, rule: ExportRule)
    ensures Loaded(BeforeLoad(st, rule), companyId, q) ==
      LoadClientDashboard(IdOf(companyId), IdOf(GetKey(st, CompanyIdKey, Absent)),
        q.clients, q.machines, q.metrics, q.now, rule.KeepStored? && DownloadKey in st)
  {
    assert GetKey(BeforeLoad(st, rule), CompanyIdKey, Absent) == GetKey(st, CompanyIdKey, Absent);
  }

  /** The keys the loader writes: the threshold table always (the
      `SupabaseData` constructor), the issue map when the summary got as far
      as the issue report, and the export when the bundle is not `{}`. */
  function LoaderKeys(d: Option<Dashboard>): set<string> {
    {ThresholdsKey}
      + (if d.Some? && d.value.summary.Stats? then {IssueMapKey} else {})
      + (if d.Some? then {DownloadKey} else {})
  }

  /** The session as `SupabaseData()` and a `load_client_dashboard_data` that
      returned `d` leave it. Each of the three writes only fills an absent
      key: the threshold table and the issue map are `init`s, and the export
      is set to what `get_download_data` returns, which is the stored export
      when there is one. */
  function LoaderSession(st: State<Slot>, d: Option<Dashboard>): (r: State<Slot>)
    ensures r.Keys == st.Keys + LoaderKeys(d)
    ensures forall k :: k in st ==> r[k] == st[k]
    ensures ThresholdsKey !in st ==> r[ThresholdsKey] == Thresholds(Table)
    ensures d.Some? && d.value.summary.Stats? && IssueMapKey !in st ==> r[IssueMapKey] == MachineIssues(d.value.summary.issues)
    ensures d.Some? && DownloadKey !in st ==> r[DownloadKey] == MetricsCsv(d.value.latestMetrics)
  {
    var st1 := InitKey(st, ThresholdsKey, Thresholds(Table)).0;
    match d
    case None => st1
    case Some(dash) =>
      var st2 := if dash.summary.Stats? then InitKey(st1, IssueMapKey, MachineIssues(dash.summary.issues)).0 else st1;
      var csv := if DownloadKey in st2 then st2[DownloadKey] else MetricsCsv(dash.latestMetrics);
      SetKey(st2, DownloadKey, csv)
  }

  /** A reload: the loader has run on `BeforeLoad(st, rule)` and answered
      `loaded`. When it raised the page fails; otherwise the session keeps
      the loader's writes and then caches the data under the company id. */
  function Reload(st: State<Slot>, companyId: Slot, loaded: Result<Option<Dashboard>>, rule: ExportRule): (r: Result<(State<Slot>, Slot)>)
    ensures r.Ok? <==> loaded.Ok?
    ensures r.Ok? ==> var d := loaded.value;
      var (st', data) := r.value;
      && data == CompanyData(d)
      && st'.Keys == BeforeLoad(st, rule).Keys + {CompanyDataKey, LoadedIdKey} + LoaderKeys(d)
      && st'[CompanyDataKey] == data && st'[LoadedIdKey] == companyId
  {
    match loaded
    case Raise(e) => Raise(e)
    case Ok(d) =>
      var st' := SetKey(SetKey(LoaderSession(BeforeLoad(st, rule), d), CompanyDataKey, CompanyData(d)), LoadedIdKey, companyId);
      Ok((st', CompanyData(d)))
  }

  /** The session a successful reload produces, as the loader and the cache
      writes build it. */
  lemma ReloadSession(st: State<Slot>, companyId: Slot, loaded: Result<Option<Dashboard>>, rule: ExportRule)
    requires loaded.Ok?
    ensures Reload(st, companyId, loaded, rule).value.0
      == SetKey(SetKey(LoaderSession(BeforeLoad(st, rule), loaded.value), CompanyDataKey, CompanyData(loaded.value)), LoadedIdKey, companyId)
  {
  }

  /** A reload's `init`s: the threshold table and the issue map are written
      only where the session had nothing. */
  lemma ReloadInits(st: State<Slot>, companyId: Slot, loaded: Result<Option<Dashboard>>, rule: ExportRule)
    requires loaded.Ok?
    ensures var d := loaded.value;
      var st' := Reload(st, companyId, loaded, rule).value.0;
      && (ThresholdsKey !in st ==> st'[ThresholdsKey] == Thresholds(Table))
      && ((d.Some? && d.value.summary.Stats? && IssueMapKey !in st) ==>
            st'[IssueMapKey] == MachineIssues(d.value.summary.issues))
  {
    ReloadSession(st, companyId, loaded, rule);
  }

  /** A reload's export: as written a stored export survives, whichever
      company it was made for; otherwise it is the new metric frame's. */
  lemma ReloadExport(st: State<Slot>, companyId: Slot, loaded: Result<Option<Dashboard>>, rule: ExportRule)
    requires loaded.Ok?
    ensures var d := loaded.value;
      var st' := Reload(st, companyId, loaded, rule).value.0;
      && (rule.KeepStored? && DownloadKey in st ==> st'[DownloadKey] == st[DownloadKey])
      && ((d.Some? && (rule.PerCompany? || DownloadKey !in st)) ==> st'[DownloadKey] == MetricsCsv(d.value.latestMetrics))
  {
    ReloadSession(st, companyId, loaded, rule);
    assert DownloadKey in BeforeLoad(st, rule) <==> rule.KeepStored? && DownloadKey in st;
  }

  /** Nothing but the cache, the loader's writes and the export changes. */
  lemma ReloadKeepsOthers(st: State<Slot>, companyId: Slot, loaded: Result<Option<Dashboard>>, rule: ExportRule)
    requires loaded.Ok?
    ensures var st' := Reload(st, companyId, loaded, rule).value.0;
      forall k :: k in st && k !in {CompanyDataKey, LoadedIdKey, DownloadKey} ==> st'[k] == st[k]
  {
    ReloadSession(st, companyId, loaded, rule);
  }

  /** The company data the page works with and the session afterwards: the
      cached data for the same company, else a reload with the loader run
      against the session. */
  function LoadCompanyData(st: State<Slot>, companyId: Slot, q: Queries, rule: ExportRule): (r: Result<(State<Slot>, Slot)>)
    ensures !NeedsReload(st, companyId) ==> r == Ok((st, st[CompanyDataKey]))
    ensures NeedsReload(st, companyId) ==> r == Reload(st, companyId, Loaded(BeforeLoad(st, rule), companyId, q), rule)
    // after a reload the session is no longer stale for this company
    ensures NeedsReload(st, companyId) && r.Ok? ==> !NeedsReload(r.value.0, companyId) && r.value.0[CompanyDataKey] == r.value.1
  {
    if NeedsReload(st, companyId) then
      Reload(st, companyId, Loaded(BeforeLoad(st, rule), companyId, q), rule)
    else
      Ok((st, GetKey(st, CompanyDataKey, Absent)))
  }

  /** Once loaded, the data stays cached: running the page again for the same
      company does not reload, whatever the queries would now answer. */
  lemma SecondLoadHitsCache(st: State<Slot>, companyId: Slot, q: Queries, later: Queries, rule: ExportRule)
    requires LoadCompanyData(st, companyId, q, rule).Ok?
    ensures var (st', data) := LoadCompanyData(st, companyId, q, rule).value;
      && !NeedsReload(st', companyId)
      && LoadCompanyData(st', companyId, later, rule) == Ok((st', data))
  {
  }

  /** A metric frame with one collected row. */
  const OneRowFrame: Frame := Frame({CollectedAt}, [map[CollectedAt := Time(1.0)]])

  /** As written, a session that switches to company "B" keeps offering the
      export made for company "A": B has no machines, so its dashboard loads
      only because A's export counts as cached, and the stored export is not
      B's metric frame. */
  lemma StaleExportCounterexample()
    ensures var st := map[CompanyDataKey := CompanyData(None), LoadedIdKey := Text("A"), DownloadKey := MetricsCsv(OneRowFrame)];
      var r := LoadCompanyData(st, Text("B"), Queries(Ok([]), Ok([]), Ok([]), 0), KeepStored);
      && r.Ok? && r.value.1.CompanyData? && r.value.1.data.Some?
      && r.value.1.data.value.clientId == "B"
      && r.value.0[DownloadKey] == MetricsCsv(OneRowFrame)
      && r.value.1.data.value.latestMetrics != OneRowFrame
  {
    var st := map[CompanyDataKey := CompanyData(None), LoadedIdKey := Text("A"), DownloadKey := MetricsCsv(OneRowFrame)];
    var q := Queries(Ok([]), Ok([]), Ok([]), 0);
    assert NeedsReload(st, Text("B"));
    assert ClientMachines(q.machines).Empty();
    assert LatestMetrics(q.machines, q.metrics, MetricsLimit).rows == [];
  }

  /** With the export dropped on every reload, the session's export is always
      the one of the company whose data was just loaded. */
  lemma ExportFollowsCompany(st: State<Slot>, companyId: Slot, q: Queries)
    requires NeedsReload(st, companyId)
    requires LoadCompanyData(st, companyId, q, PerCompany).Ok?
    ensures var (st', data) := LoadCompanyData(st, companyId, q, PerCompany).value;
      data.CompanyData? && data.data.Some? ==> DownloadKey in st' && st'[DownloadKey] == MetricsCsv(data.data.value.latestMetrics)
  {
  }

  /** Every label some machine has an issue with. */
  function AllIssues(m: IssueMap): (u: set<string>)
    ensures forall l :: l in u <==> exists k :: k in m && l in m[k]
  {
    set k, l | k in m && l in m[k] :: l
  }

  /** The loop that collects the issue set stored under "issues". */
  method UnionOfIssues(m: IssueMap) returns (u: set<string>)
    ensures u == AllIssues(m)
  {
    u := {};
    var todo := m.Keys;
    while todo != {}
      invariant todo <= m.Keys
      invariant forall l :: l in u <==> exists k :: k in m && k !in todo && l in m[k]
      decreases |todo|
    {
      var k :| k in todo;
      u := u + m[k];
      todo := todo - {k};
    }
  }

  /** The columns that may name a machine, by preference. */
  const LabelCandidates: seq<string> := ["label_maquina", "nome_maquina", "machine_name", "name", "id"]

  /** The first of `cands` that is a column, or None. */
  function FirstColumn(columns: set<string>, cands: seq<string>): (r: Option<string>)
    ensures r.None? <==> forall i :: 0 <= i < |cands| ==> cands[i] !in columns
    ensures r.Some? ==> exists i :: (0 <= i < |cands| && cands[i] == r.value && r.value in columns
      && forall j :: 0 <= j < i ==> cands[j] !in columns)
  {
    var i := FirstIn(columns, cands);
    if i == |cands| then None else Some(cands[i])
  }

  /** The machine label column `make_sidebar` picks. */
  function LabelColumn(columns: set<string>): Option<string> {
    FirstColumn(columns, LabelCandidates)
  }

  const PasswordTab: string := "Alterar Senha"

  /** The tabs offered to a company with machines. */
  const CompanyTabs: seq<string> := [
    "Visão Geral", "Processamento", "Hardware", "Software", PasswordTab, "Máquinas comprometidas"
  ]

  /** One run of `run_page` up to the tab choice: load or reuse the company
      data, then either offer only the password tab (no machines) or store
      the union of the machines' issues and offer every tab. `{}` as company
      data has no "machines" key, and a summary without the issue map cannot
      be iterated. */
  function RunPage(st: State<Slot>, companyId: Slot, q: Queries, rule: ExportRule): (r: Result<(State<Slot>, seq<string>)>)
    ensures r.Ok? ==> LoadCompanyData(st, companyId, q, rule).Ok?
    ensures r.Ok? ==> var data := LoadCompanyData(st, companyId, q, rule).value.1;
      && data.CompanyData? && data.data.Some?
      && (data.data.value.machines.Empty() <==> r.value.1 == [PasswordTab])
      && (!data.data.value.machines.Empty() ==>
           (&& r.value.1 == CompanyTabs
            && data.data.value.summary.Stats?
            && IssuesKey in r.value.0 && r.value.0[IssuesKey] == IssueLabels(AllIssues(data.data.value.summary.issues))))
    ensures LoadCompanyData(st, companyId, q, rule).Ok? && LoadCompanyData(st, companyId, q, rule).value.1 == CompanyData(None)
      ==> r == Raise(KeyError("machines"))
  {
    match LoadCompanyData(st, companyId, q, rule)
    case Raise(e) => Raise(e)
    case Ok((st1, data)) =>
      match data
      case CompanyData(Some(d)) =>
        if d.machines.Empty() then
          Ok((st1, [PasswordTab]))
        else
          (match d.summary
           case Shell => Raise(AttributeError)
           case Stats(_, _, _, _, _, issues) =>
             Ok((SetKey(st1, IssuesKey, IssueLabels(AllIssues(issues))), CompanyTabs)))
      case CompanyData(None) => Raise(KeyError("machines"))
      case _ => Raise(TypeError)
  }

  /** A company without machines is offered only the password form, but only
      when an export is already cached: its metric frame is empty, so a fresh
      export cannot read the collection-time column. */
  lemma NoMachinesOnlyPasswordTab(st: State<Slot>, companyId: Slot, q: Queries, rule: ExportRule)
    requires NeedsReload(st, companyId) && Truthy(IdOf(companyId)) && q.machines == Ok([])
    ensures rule.KeepStored? && DownloadKey in st ==>
      RunPage(st, companyId, q, rule).Ok? && RunPage(st, companyId, q, rule).value.1 == [PasswordTab]
    ensures !(rule.KeepStored? && DownloadKey in st) ==> RunPage(st, companyId, q, rule) == Raise(KeyError(CollectedAt))
  {
    assert ClientMachines(q.machines).Empty();
    assert LatestMetrics(q.machines, q.metrics, MetricsLimit).rows == [];
  }
}

=== FILE: config.dfy ===
/** The machine-configuration extractor (`SupabaseData._get_machine_config`):
    one value per configuration field, read from a machine's telemetry rows.
    The code as written and the evidently intended extractor are both here;
    they agree whenever the code as written succeeds. */
module Config {
  import opened Frames

  /** The configuration fields, in the order the extractor visits them. */
  const ConfigFields: seq<string> := [
    "host_name", "model", "operation_sys", "os_version", "architecture",
    "processor", "gpu_name", "inter_gpu_name", "motherboard_manuf",
    "motherboard_name", "motherboard_snum", "mac", "ipv4", "ipv6",
    "installed_softwares", "country", "region_name", "city", "lat", "lon"
  ]

  /** The label of the first row of a frame; after `dropna` the surviving
      labels keep their original row numbers, so `series[0]` looks up this
      label and fails when row 0 was dropped. */
  const FirstLabel: string := "0"

  type ConfigMap = map<string, Value>

  /** Field `c` can be read the way the code as written reads it: the column
      exists and row 0 holds a non-null cell. */
  predicate ReadableAsWritten(f: Frame, c: string) {
    c in f.columns && |f.rows| > 0 && f.Cell(0, c) != Null
  }

  /** The code as written, over the fields `cs` in order. The null branch
      assigns None but has no `else`, so the label-0 lookup runs on every
      field: it raises `KeyError` with the field name when the column is
      missing, and `KeyError(0)` when row 0 of the field is null (which
      includes the all-null field). */
  function ExtractAsWrittenOf(f: Frame, cs: seq<string>): (r: Result<ConfigMap>)
    ensures r.Ok? <==> forall c :: c in cs ==> ReadableAsWritten(f, c)
    ensures r.Ok? ==> r.value.Keys == set c | c in cs
    ensures r.Ok? ==> forall c :: c in cs ==> r.value[c] == f.Cell(0, c)
    // the error is raised by the first field that fails
    ensures r.Raise? ==> exists j :: (0 <= j < |cs| && !ReadableAsWritten(f, cs[j])
      && (forall i :: 0 <= i < j ==> ReadableAsWritten(f, cs[i]))
      && r.exc == (if cs[j] in f.columns then KeyError(FirstLabel) else KeyError(cs[j])))
  {
    var j := FirstIn(Unreadable(f, cs), cs);
    if j < |cs| then
      Raise(if cs[j] in f.columns then KeyError(FirstLabel) else KeyError(cs[j]))
    else
      Ok(map c | c in cs :: f.Cell(0, c))
  }

  /** The fields of `cs` the code as written cannot read. */
  function Unreadable(f: Frame, cs: seq<string>): (u: set<string>)
    ensures forall c :: c in u <==> c in cs && !ReadableAsWritten(f, c)
  {
    set c | c in cs && !ReadableAsWritten(f, c)
  }

  /** `_get_machine_config(df)` as written. */
  function ExtractAsWritten(f: Frame): Result<ConfigMap> {
    ExtractAsWrittenOf(f, ConfigFields)
  }

  /** The first non-null cell of column `c` from row `i` on, or null when
      there is none. */
  function FirstPresent(f: Frame, c: string, i: nat): (v: Value)
    requires i <= |f.rows|
    ensures v == Null <==> forall j :: i <= j < |f.rows| ==> f.Cell(j, c) == Null
    ensures v != Null ==> exists j :: (i <= j < |f.rows| && f.Cell(j, c) == v
      && forall h :: i <= h < j ==> f.Cell(h, c) == Null)
    decreases |f.rows| - i
  {
    if i == |f.rows| then Null
    else if f.Cell(i, c) != Null then f.Cell(i, c)
    else FirstPresent(f, c, i + 1)
  }

  /** The evidently intended extractor over the fields `cs` in order: each
      field is its first non-null value, or None when the field is null in
      every row; only a missing column raises, and the first one does. */
  function ExtractOf(f: Frame, cs: seq<string>): (r: Result<ConfigMap>)
    ensures r.Ok? <==> forall c :: c in cs ==> c in f.columns
    ensures r.Raise? ==> exists j :: (0 <= j < |cs| && cs[j] !in f.columns
      && (forall i :: 0 <= i < j ==> cs[i] in f.columns) && r.exc == KeyError(cs[j]))
    ensures r.Ok? ==> r.value.Keys == set c | c in cs
    ensures r.Ok? ==> forall c :: c in cs ==>
      (r.value[c] == Null <==> forall j :: 0 <= j < |f.rows| ==> f.Cell(j, c) == Null)
    ensures r.Ok? ==> forall c :: c in cs && r.value[c] != Null ==>
      exists j :: (0 <= j < |f.rows| && f.Cell(j, c) == r.value[c] && forall h :: 0 <= h < j ==> f.Cell(h, c) == Null)
  {
    var j := FirstIn(Missing(f, cs), cs);
    if j < |cs| then Raise(KeyError(cs[j]))
    else Ok(map c | c in cs :: FirstPresent(f, c, 0))
  }

  /** The fields of `cs` that are not columns. */
  function Missing(f: Frame, cs: seq<string>): (m: set<string>)
    ensures forall c :: c in m <==> c in cs && c !in f.columns
  {
    set c | c in cs && c !in f.columns
  }

  /** The intended `_get_machine_config(df)`. */
  function Extract(f: Frame): Result<ConfigMap> {
    ExtractOf(f, ConfigFields)
  }

  /** Wherever the code as written succeeds, it computes what was intended. */
  lemma AsWrittenAgreesWhenItSucceeds(f: Frame, cs: seq<string>)
    requires ExtractAsWrittenOf(f, cs).Ok?
    ensures ExtractOf(f, cs) == ExtractAsWrittenOf(f, cs)
  {
    forall c | c in cs ensures c in f.columns && FirstPresent(f, c, 0) == f.Cell(0, c) {
      assert ReadableAsWritten(f, c);
    }
    assert ExtractOf(f, cs).Ok?;
    var intended, asWritten := ExtractOf(f, cs).value, ExtractAsWrittenOf(f, cs).value;
    assert intended.Keys == asWritten.Keys;
    assert forall c :: c in intended ==> intended[c] == asWritten[c];
    assert intended == asWritten;
  }

  /** A machine whose rows all report the same configuration yields that
      configuration under the intended extractor. */
  lemma UniformRowsRoundTrip(cfg: ConfigMap, n: nat, cs: seq<string>)
    requires n > 0
    requires forall c :: c in cs ==> c in cfg
    ensures ExtractOf(FromRecords(seq(n, _ => cfg)), cs).Ok?
    ensures forall c :: c in cs ==> ExtractOf(FromRecords(seq(n, _ => cfg)), cs).value[c] == cfg[c]
  {
    var rows := seq(n, _ => cfg);
    var f := FromRecords(rows);
    assert forall c :: c in cs ==> c in rows[0];
    var r := ExtractOf(f, cs);
    forall c | c in cs ensures r.value[c] == cfg[c] {
      assert f.Cell(0, c) == cfg[c];
      if cfg[c] != Null {
        var j :| 0 <= j < |f.rows| && f.Cell(j, c) == r.value[c] && forall h :: 0 <= h < j ==> f.Cell(h, c) == Null;
        assert j == 0;
      }
    }
  }

  /** A field that is null in row 0 and set in row 1 makes the code as written
      raise `KeyError(0)`, while the intended extractor reports row 1's value. */
  lemma NullFirstRowRaises(f: Frame, cs: seq<string>)
    requires |cs| > 0 && |f.rows| >= 2
    requires forall c :: c in cs ==> c in f.columns
    requires f.Cell(0, cs[0]) == Null && f.Cell(1, cs[0]) != Null
    ensures ExtractAsWrittenOf(f, cs) == Raise(KeyError(FirstLabel))
    ensures ExtractOf(f, cs).Ok? && ExtractOf(f, cs).value[cs[0]] == f.Cell(1, cs[0])
  {
    var r := ExtractOf(f, cs);
    assert cs[0] in cs;
    var j :| 0 <= j < |f.rows| && f.Cell(j, cs[0]) == r.value[cs[0]]
      && forall h :: 0 <= h < j ==> f.Cell(h, cs[0]) == Null;
    assert j == 1;
  }

  /** A concrete machine with two rows: the first row lacks a host name and the
      second one has it. The code as written raises `KeyError(0)`, which the
      history assembler turns into its all-None payload; the intended
      extractor reports the host name of the second row. */
  lemma NullFirstRowCounterexample()
    ensures var f := FromRecords([
              (map c | c in ConfigFields :: Str("x"))[ConfigFields[0] := Null],
              map c | c in ConfigFields :: Str("pc-01")]);
      && ExtractAsWritten(f) == Raise(KeyError(FirstLabel))
      && Extract(f).Ok? && Extract(f).value["host_name"] == Str("pc-01")
  {
    var r0 := (map c | c in ConfigFields :: Str("x"))[ConfigFields[0] := Null];
    var r1 := map c | c in ConfigFields :: Str("pc-01");
    var f := FromRecords([r0, r1]);
    forall c | c in ConfigFields ensures c in f.columns {
      assert c in f.rows[0];
    }
    NullFirstRowRaises(f, ConfigFields);
  }
}

=== FILE: frames.dfy ===
/** Cells, rows and data frames as the dashboard engine sees them, plus the
    Python exceptions that the engine's helpers can raise. */
module Frames {

  datatype Option<T> = None | Some(value: T)

  /** The exceptions the engine's helpers raise on malformed input. */
  datatype Exc =
    | KeyError(key: string)   // a missing column or a missing index label
    | TypeError               // an ordered comparison or mean of a non-number
    | ValueError              // a reduction (np.max/np.min) over an empty list
    | AttributeError          // a method called on a value that lacks it

  /** A computation that either returns a value or raises. */
  datatype Result<T> = Ok(value: T) | Raise(exc: Exc)

  /** One cell of a row fetched from the database: JSON null, a number (Python
      int or float), a string, a boolean, or a list of numbers; or, once a
      time column has been converted, a pandas Timestamp (`Time`, in seconds
      since the epoch), which is neither an int nor a float. */
  datatype Value = Null | Num(x: real) | Str(s: string) | Bool(b: bool) | List(xs: seq<real>) | Time(t: real)

  /** The column holding the machine id of a telemetry row. */
  const IdColumn: string := "id_maquina"

  /** A row is a record from column name to cell. */
  type Row = map<string, Value>

  /** A pandas data frame: its column labels and its rows in order. A row that
      lacks a column reads as null in that column. */
  datatype Frame = Frame(columns: set<string>, rows: seq<Row>) {

    /** pandas' `empty`: no rows or no columns. */
    predicate Empty() {
      |rows| == 0 || columns == {}
    }

    function Cell(i: nat, c: string): Value
      requires i < |rows|
    {
      if c in rows[i] then rows[i][c] else Null
    }
  }

  /** The cell `c` of a single row. */
  function Get(row: Row, c: string): Value {
    if c in row then row[c] else Null
  }

  /** Every column label used by some record. */
  function Columns(rows: seq<Row>): (cs: set<string>)
    ensures forall i, c :: 0 <= i < |rows| && c in rows[i] ==> c in cs
    ensures forall c :: c in cs ==> exists i :: 0 <= i < |rows| && c in rows[i]
  {
    set i, c | 0 <= i < |rows| && c in rows[i] :: c
  }

  /** `pd.DataFrame(records)`: the columns are the union of the records' keys. */
  function FromRecords(rows: seq<Row>): (f: Frame)
    ensures f.rows == rows
    ensures |rows| == 0 ==> f.Empty()
    ensures forall i, c :: 0 <= i < |rows| ==> f.Cell(i, c) == Get(rows[i], c)
  {
    Frame(Columns(rows), rows)
  }

  /** The first `n` elements of `s`, as a query's `.limit(n)` returns them. */
  function Take<T>(s: seq<T>, n: nat): (r: seq<T>)
    ensures |r| <= n && |r| <= |s|
    ensures |s| <= n ==> r == s
    ensures forall i :: 0 <= i < |r| ==> r[i] == s[i]
  {
    if |s| <= n then s else s[..n]
  }

  /** Python truthiness of an optional string: None and "" are false. */
  predicate Truthy(s: Option<string>) {
    s.Some? && s.value != ""
  }

  /** The number a cell stands for when Python's `isinstance(x, int) or
      isinstance(x, float)` accepts it: bool is a subclass of int, so True and
      False count as 1 and 0. */
  function NumericValue(v: Value): (r: Option<real>)
    ensures r.Some? <==> v.Num? || v.Bool?
    ensures v.Num? ==> r == Some(v.x)
  {
    match v
    case Num(x) => Some(x)
    case Bool(b) => Some(if b then 1.0 else 0.0)
    case _ => None
  }

  /** The position of the first element of `xs` that lies in `s`, or `|xs|`
      when none does: the index at which a loop over `xs` that stops at the
      first hit stops. */
  function FirstIn(s: set<string>, xs: seq<string>): (i: nat)
    ensures i <= |xs|
    ensures forall j :: 0 <= j < i ==> xs[j] !in s
    ensures i < |xs| ==> xs[i] in s
  {
    if |xs| == 0 || xs[0] in s then 0
    else
      var i := FirstIn(s, xs[1..]);
      assert forall j :: 1 <= j < i + 1 ==> xs[j] == xs[1..][j - 1];
      i + 1
  }
}

=== FILE: issues.dfy ===
/** The issue detector: the fixed threshold table and the map from machine id
    to the set of metric labels its rows violate (`SupabaseData._get_issues_report`). */
module Issues {
  import opened Frames

  /** One line of the threshold table: the limit, whether a value at or above
      it (`asc`) or at or below it is an issue, and the title shown to users.
      The two categorical metrics carry no limit and no direction. */
  datatype Threshold = Threshold(val: Option<real>, asc: Option<bool>, title: string)

  /** The threshold table, in the order the detector walks it. */
  const Table: seq<(string, Threshold)> := [
    ("cpu_usage", Threshold(Some(0.8), Some(true), "Uso de CPU")),
    ("ram_usage", Threshold(Some(0.9), Some(true), "Uso de RAM")),
    ("cpu_temperature", Threshold(Some(80.0), Some(true), "Temperatura da CPU")),
    ("gpu_temperature", Threshold(Some(80.0), Some(true), "Temperatura da GPU")),
    ("click_rate", Threshold(Some(0.0), Some(false), "Ociosidade do mouse")),
    ("keypress_rate", Threshold(Some(0.0), Some(false), "Ociosidade do teclado")),
    ("disk_usage_root", Threshold(Some(0.95), Some(true), "Espaço em disco")),
    ("recent_hardware_failures", Threshold(Some(0.1), Some(true), "Falhas de hardware")),
    ("smart_overall", Threshold(None, None, "Status do SMART")),
    ("firewall_active", Threshold(None, None, "Status do Firewall")),
    ("failed_logins", Threshold(Some(5.0), Some(true), "Tentativas de login")),
    ("instant_power_consumption", Threshold(Some(25.0), Some(true), "Consumo energético"))
  ]

  /** The metric labels of the table. */
  function Labels(): (ls: set<string>)
    ensures forall j :: 0 <= j < |Table| ==> Table[j].0 in ls
    ensures forall l :: l in ls ==> exists j :: 0 <= j < |Table| && Table[j].0 == l
  {
    set j | 0 <= j < |Table| :: Table[j].0
  }

  /** Machine id to the set of violated metric labels. */
  type IssueMap = map<Value, set<string>>

  /** pandas' element-wise `series >= limit` (or `<=`): a null cell compares
      false, a number or bool compares numerically, and a string or list
      cannot be ordered against a number. */
  function Ordered(v: Value, limit: Option<real>, atLeast: bool): (r: Result<bool>)
    ensures v == Null ==> r == Ok(false)
    ensures (v.Str? || v.List? || v.Time?) ==> r == Raise(TypeError)
    ensures v.Num? && limit.Some? ==> r == Ok(if atLeast then v.x >= limit.value else v.x <= limit.value)
  {
    match v
    case Null => Ok(false)
    case Str(_) => Raise(TypeError)
    case List(_) => Raise(TypeError)
    case Time(_) => Raise(TypeError)
    case _ =>
      var x := NumericValue(v).value;
      if limit.None? then Raise(TypeError)
      else if atLeast then Ok(x >= limit.value)
      else Ok(x <= limit.value)
  }

  /** Whether the cell `v` of column `metric` is an issue, in the detector's
      branch order: SMART status, firewall status, then the direction. */
  function Flags(metric: string, t: Threshold, v: Value): Result<bool> {
    if metric == "smart_overall" then
      Ok(v != Str("PASSED") && v != Str("OK") && v != Null)
    else if metric == "firewall_active" then
      Ok(v == Str("TRUE"))
    else if t.asc == Some(true) then
      Ordered(v, t.val, true)
    else
      Ordered(v, t.val, false)
  }

  /** The comparators of the table's entries: a null cell is never an issue;
      the SMART status is one unless it is "PASSED", "OK" or null; the
      firewall is one when it is "TRUE"; every other metric is one at or above
      its limit, except the two idle rates, which are one at or below it. */
  lemma TableComparators(j: nat, v: Value)
    requires j < |Table|
    ensures Flags(Table[j].0, Table[j].1, Null) == Ok(false)
    ensures Table[j].0 == "smart_overall" ==>
      (Flags(Table[j].0, Table[j].1, v) == Ok(true) <==> v != Null && v != Str("PASSED") && v != Str("OK"))
    ensures Table[j].0 == "firewall_active" ==>
      (Flags(Table[j].0, Table[j].1, v) == Ok(true) <==> v == Str("TRUE"))
    ensures Table[j].1.asc.Some? <==> Table[j].0 != "smart_overall" && Table[j].0 != "firewall_active"
    ensures Table[j].1.asc == Some(false) <==> Table[j].0 == "click_rate" || Table[j].0 == "keypress_rate"
    ensures Table[j].1.asc.Some? && v.Num? ==>
      (&& Table[j].1.val.Some?
       && (Flags(Table[j].0, Table[j].1, v) == Ok(true) <==>
             if Table[j].1.asc.value then v.x >= Table[j].1.val.value else v.x <= Table[j].1.val.value))
  {
  }

  /** Every cell of the entry's column can be compared. */
  ghost predicate Comparable(f: Frame, e: (string, Threshold)) {
    forall i :: 0 <= i < |f.rows| ==> Flags(e.0, e.1, f.Cell(i, e.0)).Ok?
  }

  /** Some row of machine `m` violates the entry's threshold. */
  ghost predicate FlaggedBy(f: Frame, e: (string, Threshold), m: Value) {
    && e.0 in f.columns
    && exists i :: 0 <= i < |f.rows| && f.Cell(i, IdColumn) == m && Flags(e.0, e.1, f.Cell(i, e.0)) == Ok(true)
  }

  /** Machine `m` violates metric `l` under one of `entries`. */
  ghost predicate ViolatesIn(f: Frame, entries: seq<(string, Threshold)>, m: Value, l: string) {
    exists j :: 0 <= j < |entries| && entries[j].0 == l && FlaggedBy(f, entries[j], m)
  }

  /** Machine `m` violates metric `l` under the threshold table. */
  ghost predicate Violates(f: Frame, m: Value, l: string) {
    ViolatesIn(f, Table, m, l)
  }

  /** Walking `entries` raises nothing: every present metric's cells compare,
      and the id column exists if any metric is present. */
  ghost predicate ScanOk(f: Frame, entries: seq<(string, Threshold)>) {
    && (forall j :: 0 <= j < |entries| && entries[j].0 in f.columns ==> Comparable(f, entries[j]))
    && ((exists j :: 0 <= j < |entries| && entries[j].0 in f.columns) ==> IdColumn in f.columns)
  }

  /** Machine `m` is listed with metric `l`. */
  predicate Has(acc: IssueMap, m: Value, l: string) {
    m in acc && l in acc[m]
  }

  /** Every machine in the map has at least one issue. */
  ghost predicate NoEmptySets(acc: IssueMap) {
    forall m :: m in acc ==> acc[m] != {}
  }

  /** The boolean mask of the entry's comparison over rows `i..`. */
  function RowFlags(f: Frame, e: (string, Threshold), i: nat): (r: Result<seq<bool>>)
    requires i <= |f.rows|
    ensures r.Ok? <==> forall j :: i <= j < |f.rows| ==> Flags(e.0, e.1, f.Cell(j, e.0)).Ok?
    ensures r.Ok? ==> |r.value| == |f.rows| - i
    ensures r.Ok? ==> forall j :: i <= j < |f.rows| ==> (r.value[j - i] <==> Flags(e.0, e.1, f.Cell(j, e.0)) == Ok(true))
    decreases |f.rows| - i
  {
    if i == |f.rows| then Ok([])
    else
      match Flags(e.0, e.1, f.Cell(i, e.0))
      case Raise(x) => Raise(x)
      case Ok(b) =>
        match RowFlags(f, e, i + 1)
        case Raise(x) => Raise(x)
        case Ok(rest) => Ok([b] + rest)
  }

  /** Some row from `i` on is flagged in `mask` and carries machine id `m`. */
  ghost predicate MaskedFrom(f: Frame, mask: seq<bool>, i: nat, m: Value)
    requires |mask| == |f.rows|
  {
    exists j :: i <= j < |f.rows| && mask[j] && f.Cell(j, IdColumn) == m
  }

  lemma MaskedFromStep(f: Frame, mask: seq<bool>, i: nat, m: Value)
    requires |mask| == |f.rows| && i < |f.rows|
    ensures MaskedFrom(f, mask, i, m) <==>
      (mask[i] && f.Cell(i, IdColumn) == m) || MaskedFrom(f, mask, i + 1, m)
  {
  }

  /** Adds `metric` to the set of every machine whose row, from `i` on, is
      flagged in `mask`. */
  function AddFlagged(acc: IssueMap, f: Frame, mask: seq<bool>, metric: string, i: nat): IssueMap
    requires |mask| == |f.rows| && i <= |f.rows|
    decreases |f.rows| - i
  {
    if i == |f.rows| then acc
    else if mask[i] then
      var id := f.Cell(i, IdColumn);
      AddFlagged(acc[id := (if id in acc then acc[id] else {}) + {metric}], f, mask, metric, i + 1)
    else
      AddFlagged(acc, f, mask, metric, i + 1)
  }

  /** `AddFlagged` adds exactly the pairs (machine, `metric`) of the masked
      rows, and never leaves a machine with an empty set. */
  lemma {:induction false} AddFlaggedAdds(acc: IssueMap, f: Frame, mask: seq<bool>, metric: string, i: nat)
    requires |mask| == |f.rows| && i <= |f.rows|
    ensures NoEmptySets(acc) ==> NoEmptySets(AddFlagged(acc, f, mask, metric, i))
    ensures forall m, l :: Has(AddFlagged(acc, f, mask, metric, i), m, l) <==>
      (Has(acc, m, l) || (l == metric && MaskedFrom(f, mask, i, m)))
    decreases |f.rows| - i
  {
    var r := AddFlagged(acc, f, mask, metric, i);
    if i == |f.rows| {
      assert forall m :: !MaskedFrom(f, mask, i, m);
    } else {
      var acc' := if mask[i] then
          var id := f.Cell(i, IdColumn);
          acc[id := (if id in acc then acc[id] else {}) + {metric}]
        else acc;
      assert r == AddFlagged(acc', f, mask, metric, i + 1);
      assert forall m, l :: Has(acc', m, l) <==>
        (Has(acc, m, l) || (l == metric && mask[i] && f.Cell(i, IdColumn) == m));
      assert NoEmptySets(acc) ==> NoEmptySets(acc');
      AddFlaggedAdds(acc', f, mask, metric, i + 1);
      forall m, l ensures Has(r, m, l) <==> (Has(acc, m, l) || (l == metric && MaskedFrom(f, mask, i, m))) {
        MaskedFromStep(f, mask, i, m);
      }
    }
  }

  /** Violations under `entries` are those under its head plus those under its tail. */
  lemma ViolatesInCons(f: Frame, entries: seq<(string, Threshold)>, m: Value, l: string)
    requires |entries| > 0
    ensures ViolatesIn(f, entries, m, l) <==>
      (entries[0].0 == l && FlaggedBy(f, entries[0], m)) || ViolatesIn(f, entries[1..], m, l)
  {
    if ViolatesIn(f, entries, m, l) {
      var j :| 0 <= j < |entries| && entries[j].0 == l && FlaggedBy(f, entries[j], m);
      if j > 0 {
        assert entries[1..][j - 1] == entries[j];
      }
    }
    if ViolatesIn(f, entries[1..], m, l) {
      var j :| 0 <= j < |entries[1..]| && entries[1..][j].0 == l && FlaggedBy(f, entries[1..][j], m);
      assert entries[j + 1] == entries[1..][j];
    }
  }

  /** Walking `entries` raises nothing iff its head raises nothing and its tail raises nothing. */
  lemma ScanOkCons(f: Frame, entries: seq<(string, Threshold)>)
    requires |entries| > 0
    ensures ScanOk(f, entries) <==>
      && (entries[0].0 in f.columns ==> Comparable(f, entries[0]) && IdColumn in f.columns)
      && ScanOk(f, entries[1..])
  {
    if ScanOk(f, entries) {
      forall j | 0 <= j < |entries[1..]| && entries[1..][j].0 in f.columns
        ensures Comparable(f, entries[1..][j]) && IdColumn in f.columns
      {
        assert entries[1..][j] == entries[j + 1];
      }
    }
    if (entries[0].0 in f.columns ==> Comparable(f, entries[0]) && IdColumn in f.columns) && ScanOk(f, entries[1..]) {
      forall j | 0 <= j < |entries| && entries[j].0 in f.columns
        ensures Comparable(f, entries[j]) && IdColumn in f.columns
      {
        if j > 0 {
          assert entries[1..][j - 1] == entries[j];
        }
      }
    }
  }

  /** The detector's loop over the table entries, from `entries` on. */
  function Scan(f: Frame, entries: seq<(string, Threshold)>, acc: IssueMap): (r: Result<IssueMap>)
    ensures r.Ok? <==> ScanOk(f, entries)
    ensures r.Ok? && NoEmptySets(acc) ==> NoEmptySets(r.value)
    ensures r.Ok? ==> forall m, l :: Has(r.value, m, l) <==>
      (Has(acc, m, l) || ViolatesIn(f, entries, m, l))
    decreases |entries|
  {
    if |entries| == 0 then Ok(acc)
    else
      var e := entries[0];
      ScanOkCons(f, entries);
      if e.0 !in f.columns then
        ScanSkip(f, entries, acc)
      else
        match RowFlags(f, e, 0)
        case Raise(x) => Raise(x)
        case Ok(mask) =>
          if IdColumn !in f.columns then Raise(KeyError(IdColumn))
          else
            var r := Scan(f, entries[1..], AddFlagged(acc, f, mask, e.0, 0));
            AddFlaggedAdds(acc, f, mask, e.0, 0);
            ScanFlagged(f, entries, acc, mask, r);
            r
  }

  /** The step of `Scan` for a head metric that is not a column. */
  function ScanSkip(f: Frame, entries: seq<(string, Threshold)>, acc: IssueMap): (r: Result<IssueMap>)
    requires |entries| > 0 && entries[0].0 !in f.columns
    ensures r.Ok? <==> ScanOk(f, entries[1..])
    ensures r.Ok? && NoEmptySets(acc) ==> NoEmptySets(r.value)
    ensures r.Ok? ==> forall m, l :: Has(r.value, m, l) <==>
      (Has(acc, m, l) || ViolatesIn(f, entries, m, l))
    decreases |entries|, 0
  {
    var r := Scan(f, entries[1..], acc);
    forall m, l ensures ViolatesIn(f, entries, m, l) <==> ViolatesIn(f, entries[1..], m, l) {
      ViolatesInCons(f, entries, m, l);
    }
    r
  }

  /** The step of `Scan` for a head metric that is a column: its flagged
      machines join the accumulated ones. */
  lemma ScanFlagged(f: Frame, entries: seq<(string, Threshold)>, acc: IssueMap, mask: seq<bool>, r: Result<IssueMap>)
    requires |entries| > 0 && entries[0].0 in f.columns
    requires RowFlags(f, entries[0], 0) == Ok(mask)
    requires r.Ok? ==> forall m, l :: Has(r.value, m, l) <==>
      (Has(AddFlagged(acc, f, mask, entries[0].0, 0), m, l)
        || ViolatesIn(f, entries[1..], m, l))
    ensures r.Ok? ==> forall m, l :: Has(r.value, m, l) <==>
      (Has(acc, m, l) || ViolatesIn(f, entries, m, l))
  {
    var e := entries[0];
    forall m ensures FlaggedBy(f, e, m) <==> MaskedFrom(f, mask, 0, m) {
      if MaskedFrom(f, mask, 0, m) {
        var j :| 0 <= j < |f.rows| && mask[j] && f.Cell(j, IdColumn) == m;
        assert Flags(e.0, e.1, f.Cell(j, e.0)) == Ok(true);
      }
      if FlaggedBy(f, e, m) {
        var j :| 0 <= j < |f.rows| && f.Cell(j, IdColumn) == m && Flags(e.0, e.1, f.Cell(j, e.0)) == Ok(true);
        assert mask[j];
      }
    }
    var a := AddFlagged(acc, f, mask, e.0, 0);
    AddFlaggedAdds(acc, f, mask, e.0, 0);
    if r.Ok? {
      forall m, l ensures Has(r.value, m, l) <==> (Has(acc, m, l) || ViolatesIn(f, entries, m, l)) {
        ViolatesInCons(f, entries, m, l);
        assert Has(a, m, l) <==> (Has(acc, m, l) || (l == e.0 && MaskedFrom(f, mask, 0, m)));
      }
    }
  }

  /** `_get_issues_report(df)`: an empty frame gives the empty map; otherwise
      machine `m` lists metric `l` exactly when one of `m`'s rows violates
      `l`'s threshold. Every listed set is a non-empty set of table labels, so
      machines without issues are absent. The walk raises exactly when a
      present metric holds a cell it cannot compare, or when some metric is
      present but the id column is not. */
  function Report(f: Frame): (r: Result<IssueMap>)
    ensures f.Empty() ==> r == Ok(map[])
    ensures r.Ok? <==> f.Empty() || ScanOk(f, Table)
    ensures r.Ok? ==> forall m, l :: Has(r.value, m, l) <==> Violates(f, m, l)
    ensures r.Ok? ==> forall m :: m in r.value ==> r.value[m] != {} && r.value[m] <= Labels()
  {
    if f.Empty() then
      assert forall m, l :: !Violates(f, m, l);
      Ok(map[])
    else
      var r := Scan(f, Table, map[]);
      assert r.Ok? ==> forall m, l :: m in r.value && l in r.value[m] ==> l in Labels() by {
        if r.Ok? {
          forall m, l | m in r.value && l in r.value[m] ensures l in Labels() {
            assert ViolatesIn(f, Table, m, l);
          }
        }
      }
      r
  }

  /** Every machine in the report has a row that carries its id and violates
      one of the machine's listed metrics. */
  lemma ReportKeysAreFlaggedMachines(f: Frame, m: Value)
    requires Report(f).Ok? && m in Report(f).value
    ensures exists l :: l in Labels() && Violates(f, m, l)
    ensures exists i :: 0 <= i < |f.rows| && f.Cell(i, IdColumn) == m
  {
    var r := Report(f).value;
    var l :| l in r[m];
    assert Violates(f, m, l);
    var j :| 0 <= j < |Table| && Table[j].0 == l && FlaggedBy(f, Table[j], m);
  }
}

=== FILE: metrics_kpi.dfy ===
/** The metrics aggregator: per-column average, maximum and minimum over the
    numeric cells of a frame (`SupabaseData._get_metrics_kpi`). */
module MetricsKpi {
  import opened Frames
  import opened Stats

  /** The three maps the aggregator returns, keyed by column label. */
  datatype Kpi = Kpi(avg: map<string, real>, max: map<string, real>, min: map<string, real>)

  /** The numbers among `vs`, in order: nulls, strings and lists are dropped. */
  function Numerics(vs: seq<Value>): (r: seq<real>)
    ensures |r| <= |vs|
  {
    if |vs| == 0 then []
    else
      var rest := Numerics(vs[1..]);
      match NumericValue(vs[0])
      case Some(x) => [x] + rest
      case None => rest
  }

  /** A number is kept exactly when some cell stands for it. */
  lemma {:induction false} NumericsMembers(vs: seq<Value>)
    ensures forall x :: x in Numerics(vs) <==> exists v :: v in vs && NumericValue(v) == Some(x)
  {
    if |vs| > 0 {
      NumericsMembers(vs[1..]);
      assert forall v :: v in vs <==> v == vs[0] || v in vs[1..];
    }
  }

  /** The numbers of a list that starts with `v`. */
  lemma NumericsCons(vs: seq<Value>)
    requires |vs| > 0
    ensures Numerics(vs) == (match NumericValue(vs[0]) case Some(x) => [x] case None => []) + Numerics(vs[1..])
  {
  }

  /** The numbers of a concatenation are the numbers of each part, in order. */
  lemma {:induction false} NumericsAppend(a: seq<Value>, b: seq<Value>)
    ensures Numerics(a + b) == Numerics(a) + Numerics(b)
  {
    if |a| > 0 {
      NumericsAppend(a[1..], b);
      assert (a + b)[0] == a[0] && (a + b)[1..] == a[1..] + b;
      NumericsCons(a + b);
      NumericsCons(a);
    } else {
      assert a + b == b;
    }
  }

  /** When every cell is a number, nothing is dropped and the order is kept. */
  lemma {:induction false} NumericsAllNumbers(vs: seq<Value>)
    requires forall i :: 0 <= i < |vs| ==> NumericValue(vs[i]).Some?
    ensures |Numerics(vs)| == |vs| && forall i :: 0 <= i < |vs| ==> Numerics(vs)[i] == NumericValue(vs[i]).value
  {
    if |vs| > 0 {
      assert forall i :: 1 <= i < |vs| ==> vs[i] == vs[1..][i - 1];
      NumericsAllNumbers(vs[1..]);
      NumericsCons(vs);
    }
  }

  /** Column `c` of the frame, one cell per row. */
  function Column(f: Frame, c: string): (col: seq<Value>)
    ensures |col| == |f.rows|
    ensures forall i :: 0 <= i < |f.rows| ==> col[i] == f.Cell(i, c)
  {
    seq(|f.rows|, i requires 0 <= i < |f.rows| => f.Cell(i, c))
  }

  /** Some row of `f` holds the number `x` in column `c`. */
  ghost predicate Observed(f: Frame, c: string, x: real) {
    exists i :: 0 <= i < |f.rows| && NumericValue(f.Cell(i, c)) == Some(x)
  }

  /** Column `c` has at least one numeric cell. */
  ghost predicate HasNumeric(f: Frame, c: string) {
    exists i :: 0 <= i < |f.rows| && NumericValue(f.Cell(i, c)).Some?
  }

  /** The numeric cells of column `c`, as `dropna` followed by the int/float
      filter leaves them. */
  function NumericColumn(f: Frame, c: string): (r: seq<real>)
    ensures forall x :: x in r <==> Observed(f, c, x)
    ensures |r| > 0 <==> HasNumeric(f, c)
    // a column of numbers only is kept whole, in row order
    ensures (forall i :: 0 <= i < |f.rows| ==> NumericValue(f.Cell(i, c)).Some?) ==>
      |r| == |f.rows| && forall i :: 0 <= i < |f.rows| ==> r[i] == NumericValue(f.Cell(i, c)).value
  {
    var col := Column(f, c);
    var r := Numerics(col);
    NumericsMembers(col);
    assert (forall i :: 0 <= i < |f.rows| ==> NumericValue(f.Cell(i, c)).Some?) ==>
      |r| == |f.rows| && forall i :: 0 <= i < |f.rows| ==> r[i] == NumericValue(f.Cell(i, c)).value
    by {
      if forall i :: 0 <= i < |f.rows| ==> NumericValue(f.Cell(i, c)).Some? {
        NumericsAllNumbers(col);
      }
    }
    assert forall x :: Observed(f, c, x) ==> x in r by {
      forall x | Observed(f, c, x) ensures x in r {
        var i :| 0 <= i < |f.rows| && NumericValue(f.Cell(i, c)) == Some(x);
        assert col[i] in col;
      }
    }
    assert HasNumeric(f, c) ==> |r| > 0 by {
      if HasNumeric(f, c) {
        var i :| 0 <= i < |f.rows| && NumericValue(f.Cell(i, c)).Some?;
        assert col[i] in col;
        assert NumericValue(f.Cell(i, c)).value in r;
      }
    }
    assert |r| > 0 ==> HasNumeric(f, c) by {
      if |r| > 0 {
        assert r[0] in r;
        assert Observed(f, c, r[0]);
      }
    }
    r
  }

  /** The numeric column of a frame with one more row is the old numeric
      column followed by the new row's cell when it is a number: with the
      empty frame's empty column, this fixes the column's contents,
      multiplicities and order. */
  lemma NumericColumnSnoc(cols: set<string>, rows: seq<Row>, row: Row, c: string)
    ensures NumericColumn(Frame(cols, rows + [row]), c) ==
      NumericColumn(Frame(cols, rows), c) + (match NumericValue(Get(row, c)) case Some(x) => [x] case None => [])
  {
    var f, g := Frame(cols, rows), Frame(cols, rows + [row]);
    assert Column(g, c) == Column(f, c) + [Get(row, c)];
    NumericsAppend(Column(f, c), [Get(row, c)]);
    assert [Get(row, c)][1..] == [];
  }

  /** A frame without rows has an empty numeric column. */
  lemma NoRowsNoNumbers(cols: set<string>, c: string)
    ensures NumericColumn(Frame(cols, []), c) == []
  {
  }

  /** `_get_metrics_kpi(df, default)`. An empty frame maps every column to
      `default` in the average map only; otherwise a column with no numeric
      cell is left out of all three maps. */
  function Aggregate(f: Frame, default: real): (r: Kpi)
    // the empty frame: defaults in avg, nothing in min and max
    ensures f.Empty() ==> r.avg.Keys == f.columns && r.max == map[] && r.min == map[]
    ensures f.Empty() ==> forall c :: c in r.avg ==> r.avg[c] == default
    // otherwise exactly the columns with a numeric cell are reported, in all three maps
    ensures !f.Empty() ==> r.avg.Keys == r.max.Keys == r.min.Keys
    ensures !f.Empty() ==> forall c :: c in r.avg <==> c in f.columns && HasNumeric(f, c)
    // min <= avg <= max, and min and max are cells of the column that bound all of them
    ensures !f.Empty() ==> forall c :: c in r.avg ==>
      && r.min[c] <= r.avg[c] <= r.max[c]
      && Observed(f, c, r.min[c]) && Observed(f, c, r.max[c])
    ensures !f.Empty() ==> forall c, x :: c in r.avg && Observed(f, c, x) ==>
      r.min[c] <= x <= r.max[c]
    // the three figures are np.mean, max and min of the column's numbers
    ensures !f.Empty() ==> forall c :: c in r.avg ==>
      && |NumericColumn(f, c)| > 0
      && r.avg[c] == Mean(NumericColumn(f, c))
      && r.max[c] == Max(NumericColumn(f, c)) && r.min[c] == Min(NumericColumn(f, c))
  {
    if f.Empty() then
      Kpi(map c | c in f.columns :: default, map[], map[])
    else
      var reported := set c | c in f.columns && |NumericColumn(f, c)| > 0;
      assert forall c :: c in reported ==> Min(NumericColumn(f, c)) <= Mean(NumericColumn(f, c)) <= Max(NumericColumn(f, c)) by {
        forall c | c in reported
          ensures Min(NumericColumn(f, c)) <= Mean(NumericColumn(f, c)) <= Max(NumericColumn(f, c))
        {
          MeanBetweenMinMax(NumericColumn(f, c));
        }
      }
      Kpi(
        map c | c in reported :: Mean(NumericColumn(f, c)),
        map c | c in reported :: Max(NumericColumn(f, c)),
        map c | c in reported :: Min(NumericColumn(f, c)))
  }
}

=== FILE: packet_loss.dfy ===
/** The packet-loss summary: each row's packet-loss list is averaged first,
    and the figure is the mean of those per-row averages, so every row weighs
    the same however long its list is. */
module PacketLoss {
  import opened Frames
  import opened Stats

  const LossColumn: string := "pkg_loss_list"

  /** `np.mean` of one cell. A list averages its elements and an empty list
      gives NaN (here `None`); a number or bool is its own mean; null,
      strings and Timestamps cannot be averaged. */
  function CellMean(v: Value): (r: Result<Option<real>>)
    ensures v.List? && |v.xs| > 0 ==> r == Ok(Some(Mean(v.xs)))
    ensures v.List? && |v.xs| == 0 ==> r == Ok(None)
    ensures r.Ok? <==> !(v.Null? || v.Str? || v.Time?)
    // a number is its own mean, and a bool counts as 1 or 0
    ensures v.Num? ==> r == Ok(Some(v.x))
    ensures v.Bool? ==> r == Ok(Some(if v.b then 1.0 else 0.0))
  {
    match v
    case List(xs) => if |xs| == 0 then Ok(None) else Ok(Some(Mean(xs)))
    case Num(x) => Ok(Some(x))
    case Bool(b) => Ok(Some(if b then 1.0 else 0.0))
    case _ => Raise(TypeError)
  }

  /** Row `i`'s own mean, when it is a number. */
  function RowMean(f: Frame, i: nat): Option<real>
    requires i < |f.rows|
  {
    match CellMean(f.Cell(i, LossColumn))
    case Ok(m) => m
    case Raise(_) => None
  }

  /** The per-row means of rows `i..`, raising on the first cell that cannot be averaged. */
  function RowMeans(f: Frame, i: nat): (r: Result<seq<Option<real>>>)
    requires i <= |f.rows|
    ensures r.Ok? <==> forall j :: i <= j < |f.rows| ==> CellMean(f.Cell(j, LossColumn)).Ok?
    ensures r.Ok? ==> |r.value| == |f.rows| - i && forall j :: i <= j < |f.rows| ==> r.value[j - i] == RowMean(f, j)
    decreases |f.rows| - i
  {
    if i == |f.rows| then Ok([])
    else
      match CellMean(f.Cell(i, LossColumn))
      case Raise(e) => Raise(e)
      case Ok(m) =>
        match RowMeans(f, i + 1)
        case Raise(e) => Raise(e)
        case Ok(rest) => Ok([m] + rest)
  }

  /** All entries are numbers (no NaN). */
  predicate AllNumbers(ms: seq<Option<real>>) {
    forall i :: 0 <= i < |ms| ==> ms[i].Some?
  }

  /** The numbers of a NaN-free list. */
  function Values(ms: seq<Option<real>>): (xs: seq<real>)
    requires AllNumbers(ms)
    ensures |xs| == |ms| && forall i :: 0 <= i < |ms| ==> xs[i] == ms[i].value
  {
    seq(|ms|, i requires 0 <= i < |ms| => ms[i].value)
  }

  /** The per-row means of a frame whose every row has one. */
  function RowMeanValues(f: Frame): (xs: seq<real>)
    requires forall i :: 0 <= i < |f.rows| ==> RowMean(f, i).Some?
  {
    seq(|f.rows|, i requires 0 <= i < |f.rows| && RowMean(f, i).Some? => RowMean(f, i).value)
  }

  /** `PacketLossMean(df)`: raises when the column is missing or a cell cannot
      be averaged; is NaN (`None`) when there are no rows or some row's list
      is empty; otherwise it is the mean of the per-row means, which lies
      between the smallest and the largest of them. */
  function PacketLossMean(f: Frame): (r: Result<Option<real>>)
    ensures r.Ok? <==> LossColumn in f.columns && forall i :: 0 <= i < |f.rows| ==> CellMean(f.Cell(i, LossColumn)).Ok?
    ensures r.Ok? ==> (r.value.Some? <==> |f.rows| > 0 && forall i :: 0 <= i < |f.rows| ==> RowMean(f, i).Some?)
    ensures r.Ok? && r.value.Some? ==> r.value.value == Mean(RowMeanValues(f))
    ensures r.Ok? && r.value.Some? ==>
      && (exists i :: 0 <= i < |f.rows| && RowMean(f, i).Some? && RowMean(f, i).value <= r.value.value)
      && (exists i :: 0 <= i < |f.rows| && RowMean(f, i).Some? && r.value.value <= RowMean(f, i).value)
  {
    if LossColumn !in f.columns then Raise(KeyError(LossColumn))
    else
      match RowMeans(f, 0)
      case Raise(e) => Raise(e)
      case Ok(ms) =>
        assert forall j :: 0 <= j < |f.rows| ==> ms[j] == RowMean(f, j) by {
          forall j | 0 <= j < |f.rows| ensures ms[j] == RowMean(f, j) {
            assert ms[j - 0] == RowMean(f, j);
          }
        }
        if |ms| == 0 || !AllNumbers(ms) then Ok(None)
        else
          var xs := Values(ms);
          MeanBetweenMinMax(xs);
          var lo :| 0 <= lo < |xs| && xs[lo] == Min(xs);
          var hi :| 0 <= hi < |xs| && xs[hi] == Max(xs);
          assert xs[lo] == ms[lo].value == RowMean(f, lo).value;
          assert xs[hi] == ms[hi].value == RowMean(f, hi).value;
          assert xs == RowMeanValues(f);
          Ok(Some(Mean(xs)))
  }

  lemma {:induction false} SumAppend(a: seq<real>, b: seq<real>)
    ensures Sum(a + b) == Sum(a) + Sum(b)
  {
    if |a| > 0 {
      SumAppend(a[1..], b);
      assert (a + b)[1..] == a[1..] + b;
    } else {
      assert a + b == b;
    }
  }

  /** All the lists' elements in one pool. */
  function Pool(lists: seq<seq<real>>): seq<real> {
    if |lists| == 0 then [] else lists[0] + Pool(lists[1..])
  }

  /** The means of the lists, one per list. */
  function MeansOf(lists: seq<seq<real>>): (ms: seq<real>)
    requires forall i :: 0 <= i < |lists| ==> |lists[i]| > 0
    ensures |ms| == |lists|
  {
    if |lists| == 0 then [] else [Mean(lists[0])] + MeansOf(lists[1..])
  }

  /** Entry `i` of the means is the mean of list `i`. */
  lemma {:induction false} MeansOfAt(lists: seq<seq<real>>)
    requires forall i :: 0 <= i < |lists| ==> |lists[i]| > 0
    ensures forall i :: 0 <= i < |lists| ==> MeansOf(lists)[i] == Mean(lists[i])
  {
    if |lists| > 0 {
      MeansOfAt(lists[1..]);
      assert forall i :: 1 <= i < |lists| ==> lists[i] == lists[1..][i - 1];
    }
  }

  lemma {:induction false} PoolLength(lists: seq<seq<real>>, len: nat)
    requires forall i :: 0 <= i < |lists| ==> |lists[i]| == len
    ensures |Pool(lists)| == |lists| * len
  {
    if |lists| > 0 {
      PoolLength(lists[1..], len);
      assert |lists| * len == len + (|lists| - 1) * len;
    }
  }

  /** Each element multiplied by `l`. */
  function Scale(xs: seq<real>, l: real): (ys: seq<real>)
    ensures |ys| == |xs|
  {
    if |xs| == 0 then [] else [xs[0] * l] + Scale(xs[1..], l)
  }

  lemma ScaleCons(xs: seq<real>, l: real)
    requires |xs| > 0
    ensures Scale(xs, l) == [xs[0] * l] + Scale(xs[1..], l)
  {
  }

  /** The sum of each list, one per list. */
  function SumsOf(lists: seq<seq<real>>): (ss: seq<real>)
    ensures |ss| == |lists|
  {
    if |lists| == 0 then [] else [Sum(lists[0])] + SumsOf(lists[1..])
  }

  /** Scaling every element scales the sum. */
  lemma {:induction false} SumScale(xs: seq<real>, l: real)
    ensures Sum(Scale(xs, l)) == Sum(xs) * l
  {
    if |xs| > 0 {
      SumScale(xs[1..], l);
      var ys := Scale(xs, l);
      assert ys[0] == xs[0] * l && ys[1..] == Scale(xs[1..], l);
      ScaleSum(Sum(xs), xs[0], Sum(xs[1..]), l, xs[0] * l, Sum(Scale(xs[1..], l)), Sum(ys));
    }
  }

  /** The pooled sum is the sum of the per-list sums. */
  lemma {:induction false} PoolSum(lists: seq<seq<real>>)
    ensures Sum(Pool(lists)) == Sum(SumsOf(lists))
  {
    if |lists| > 0 {
      PoolSum(lists[1..]);
      SumAppend(lists[0], Pool(lists[1..]));
      var ss := SumsOf(lists);
      assert ss[0] == Sum(lists[0]) && ss[1..] == SumsOf(lists[1..]);
    }
  }

  /** With one common length, each list's sum is its mean times that length. */
  lemma {:induction false} SumsAreScaledMeans(lists: seq<seq<real>>, len: nat)
    requires len > 0 && forall i :: 0 <= i < |lists| ==> |lists[i]| == len
    ensures SumsOf(lists) == Scale(MeansOf(lists), len as real)
  {
    if |lists| > 0 {
      SumsAreScaledMeans(lists[1..], len);
      MeanTimesLength(lists[0], len);
      var ms, l := MeansOf(lists), len as real;
      assert ms[0] == Mean(lists[0]) && ms[1..] == MeansOf(lists[1..]);
      ScaleCons(ms, l);
      assert ms[0] * l == Sum(lists[0]);
    }
  }

  /** When every list has the same length, the sum of the per-list means is
      the pooled sum divided by that length. */
  lemma SumOfMeans(lists: seq<seq<real>>, len: nat)
    requires len > 0 && forall i :: 0 <= i < |lists| ==> |lists[i]| == len
    ensures Sum(MeansOf(lists)) * (len as real) == Sum(Pool(lists))
  {
    PoolSum(lists);
    SumsAreScaledMeans(lists, len);
    SumScale(MeansOf(lists), len as real);
  }

  /** A mean times the length is the sum. */
  lemma MeanTimesLength(s: seq<real>, len: nat)
    requires |s| == len > 0
    ensures Mean(s) * (len as real) == Sum(s)
  {
    var n := len as real;
    assert (Sum(s) / n) * n == Sum(s);
  }

  /** Scaling a sum of two scales each part: the step of `SumOfMeans`. */
  lemma ScaleSum(total: real, a: real, b: real, l: real, sa: real, sb: real, sum: real)
    requires total == a + b && a * l == sa && b * l == sb && sum == sa + sb
    ensures total * l == sum
  {
    assert (a + b) * l == a * l + b * l;
  }

  /** The pool of equal-length lists: its length and its sum. */
  lemma PooledTotals(lists: seq<seq<real>>, len: nat)
    requires len > 0 && forall i :: 0 <= i < |lists| ==> |lists[i]| == len
    ensures |Pool(lists)| as real == (|lists| as real) * (len as real)
    ensures Sum(Pool(lists)) == Sum(MeansOf(lists)) * (len as real)
  {
    PoolLength(lists, len);
    ProductAsReal(|lists|, len);
    SumOfMeans(lists, len);
  }

  /** Converting a product of naturals to a real converts each factor. */
  lemma ProductAsReal(a: nat, b: nat)
    ensures (a * b) as real == (a as real) * (b as real)
  {
  }

  lemma CancelFactor(a: real, n: real, l: real, al: real, nl: real)
    requires n > 0.0 && l > 0.0 && al == a * l && nl == n * l
    ensures al / nl == a / n
  {
    var q := a / n;
    assert q * n == a;
    assert (q * nl) / nl == q;
    assert al == q * nl;
  }

  /** The two-level mean differs from the pooled mean only through unequal
      list lengths: with lists of one common length they coincide. */
  lemma EqualLengthsMeanIsPooledMean(lists: seq<seq<real>>, len: nat)
    requires |lists| > 0 && len > 0
    requires forall i :: 0 <= i < |lists| ==> |lists[i]| == len
    ensures Mean(MeansOf(lists)) == Mean(Pool(lists))
  {
    var n, a := |lists| as real, Sum(MeansOf(lists));
    assert Mean(Pool(lists)) == a / n by {
      PooledTotals(lists, len);
      CancelFactor(a, n, len as real, Sum(Pool(lists)), |Pool(lists)| as real);
    }
  }

  /** Every row averaged the same: the rows [2, 4] and [10] give
      (3 + 10) / 2 = 6.5, while the pooled mean of 2, 4 and 10 is 16 / 3. */
  lemma TwoLevelExample()
    ensures PacketLossMean(Frame({LossColumn}, [map[LossColumn := List([2.0, 4.0])], map[LossColumn := List([10.0])]]))
      == Ok(Some(6.5))
    ensures Mean([2.0, 4.0, 10.0]) == 16.0 / 3.0
  {
    var f := Frame({LossColumn}, [map[LossColumn := List([2.0, 4.0])], map[LossColumn := List([10.0])]]);
    assert Mean([2.0, 4.0]) == 3.0 by {
      assert Sum([2.0, 4.0]) == 2.0 + Sum([4.0]);
      assert Sum([4.0]) == 4.0 + Sum([]);
    }
    assert Mean([10.0]) == 10.0 by {
      assert Sum([10.0]) == 10.0 + Sum([]);
    }
    assert f.Cell(0, LossColumn) == List([2.0, 4.0]);
    assert f.Cell(1, LossColumn) == List([10.0]);
    assert CellMean(List([10.0])) == Ok(Some(10.0));
    assert CellMean(List([2.0, 4.0])) == Ok(Some(3.0));
    assert RowMean(f, 0) == Some(3.0);
    assert RowMean(f, 1) == Some(10.0);
    var ms := RowMeans(f, 0).value;
    assert ms[0 - 0] == Some(3.0) && ms[1 - 0] == Some(10.0);
    assert ms == [Some(3.0), Some(10.0)];
    assert Values([Some(3.0), Some(10.0)]) == [3.0, 10.0];
    assert Sum([3.0, 10.0]) == 3.0 + Sum([10.0]);
    assert Sum([10.0]) == 10.0 + Sum([]);
    assert Sum([2.0, 4.0, 10.0]) == 2.0 + Sum([4.0, 10.0]);
    assert Sum([4.0, 10.0]) == 4.0 + Sum([10.0]);
  }

  /** The packet-loss lists of a frame whose every row holds a list. */
  function LossLists(f: Frame): (lists: seq<seq<real>>)
    requires forall i :: 0 <= i < |f.rows| ==> f.Cell(i, LossColumn).List?
    ensures |lists| == |f.rows|
  {
    seq(|f.rows|, i requires 0 <= i < |f.rows| && f.Cell(i, LossColumn).List? => f.Cell(i, LossColumn).xs)
  }

  /** For any frame whose rows all carry non-empty loss lists, the figure is
      the mean of the lists' means. */
  lemma PacketLossIsMeanOfListMeans(f: Frame)
    requires LossColumn in f.columns && |f.rows| > 0
    requires forall i :: 0 <= i < |f.rows| ==> f.Cell(i, LossColumn).List? && |f.Cell(i, LossColumn).xs| > 0
    ensures PacketLossMean(f) == Ok(Some(Mean(MeansOf(LossLists(f)))))
  {
    assert forall i :: 0 <= i < |f.rows| ==> RowMean(f, i) == Some(Mean(LossLists(f)[i]));
    MeansOfAt(LossLists(f));
    assert RowMeanValues(f) == MeansOf(LossLists(f));
  }

  /** For any frame whose rows all carry loss lists of one common non-zero
      length, the figure is the plain mean of every loss sample together. */
  lemma PacketLossEqualLengths(f: Frame, len: nat)
    requires LossColumn in f.columns && |f.rows| > 0 && len > 0
    requires forall i :: 0 <= i < |f.rows| ==> f.Cell(i, LossColumn).List? && |f.Cell(i, LossColumn).xs| == len
    ensures PacketLossMean(f) == Ok(Some(Mean(Pool(LossLists(f)))))
  {
    PacketLossIsMeanOfListMeans(f);
    EqualLengthsMeanIsPooledMean(LossLists(f), len);
  }
}

=== FILE: passwords.dfy ===
/** The company's own password change (`auth/user_db_manager.py`): the
    ordered checks of the form, and `change_own_password`, which refuses to
    touch the database when the current password does not verify. The
    database, the password check and the hashing are outside the model:
    their answers are parameters. */
module Passwords {
  import opened Frames

  const MinLength: nat := 8

  /** The form's messages, one per check, in the order the checks run. */
  const CheckMessages: seq<string> := [
    "Por favor, digite sua senha atual",
    "Por favor, digite a nova senha",
    "A nova senha deve ter pelo menos 8 caracteres",
    "As senhas não coincidem",
    "A nova senha deve ser diferente da senha atual"
  ]

  /** Check `i` of the form fails on these inputs. */
  predicate Fails(i: nat, current: string, next: string, confirm: string) {
    if i == 0 then current == ""
    else if i == 1 then next == ""
    else if i == 2 then |next| < MinLength
    else if i == 3 then next != confirm
    else if i == 4 then current == next
    else false
  }

  /** The form's validation: the message of the first failing check, or
      None when every check passes. */
  function Validate(current: string, next: string, confirm: string): (r: Option<string>)
    ensures r.None? <==> forall i :: 0 <= i < |CheckMessages| ==> !Fails(i, current, next, confirm)
    ensures r.Some? ==> exists i :: (0 <= i < |CheckMessages| && r.value == CheckMessages[i]
      && Fails(i, current, next, confirm) && forall j :: 0 <= j < i ==> !Fails(j, current, next, confirm))
  {
    if current == "" then
      assert Fails(0, current, next, confirm);
      Some(CheckMessages[0])
    else if next == "" then
      assert Fails(1, current, next, confirm);
      Some(CheckMessages[1])
    else if |next| < MinLength then
      assert Fails(2, current, next, confirm);
      Some(CheckMessages[2])
    else if next != confirm then
      assert Fails(3, current, next, confirm);
      Some(CheckMessages[3])
    else if current == next then
      assert Fails(4, current, next, confirm);
      Some(CheckMessages[4])
    else None
  }

  /** The length check admits a new password of exactly eight characters. */
  lemma EightCharactersPass(current: string, next: string)
    requires |next| == 8 && current != "" && current != next
    ensures Validate(current, next, next).None?
  {
    assert !Fails(2, current, next, next);
  }

  /** The answer of `change_own_password` and whether it wrote to the database. */
  datatype Change = Change(success: bool, message: string, updated: bool)

  const ConnectionError: string := "Erro ao conectar com o banco de dados"
  const WrongPassword: string := "Senha atual incorreta"
  const Changed: string := "Senha alterada com sucesso!"
  const UpdateFailed: string := "Erro ao atualizar a senha"
  /** The prefix of the message for an exception; its text follows. */
  const ChangeError: string := "Erro ao alterar senha: "

  /** `change_own_password`. `connected` is whether a database client exists,
      `verified` the answer (or exception) of the current-password check, and
      `update` whether the update matched a row (or its exception), consulted
      only when the update is issued. */
  function ChangeOwnPassword(connected: bool, verified: Result<bool>, update: Result<bool>): (r: Change)
    ensures r.updated <==> connected && verified == Ok(true)
    ensures r.success <==> connected && verified == Ok(true) && update == Ok(true)
    ensures connected && verified == Ok(false) ==> r == Change(false, WrongPassword, false)
    ensures !connected ==> r == Change(false, ConnectionError, false)
    ensures r.success ==> r.message == Changed
  {
    if !connected then Change(false, ConnectionError, false)
    else
      match verified
      case Raise(_) => Change(false, ChangeError, false)
      case Ok(false) => Change(false, WrongPassword, false)
      case Ok(true) =>
        match update
        case Raise(_) => Change(false, ChangeError, true)
        case Ok(true) => Change(true, Changed, true)
        case Ok(false) => Change(false, UpdateFailed, true)
  }

  const NoUser: string := "Usuário não encontrado na sessão"

  /** What a submitted form shows, and whether it called `change_own_password`. */
  datatype FormOutcome = FormOutcome(message: string, success: bool, attempted: Option<Change>)

  /** A submitted `change_password_form`: the checks in order, then the
      session's user name, then the change itself. */
  function SubmitForm(current: string, next: string, confirm: string, username: Option<string>,
                      connected: bool, verified: Result<bool>, update: Result<bool>): (r: FormOutcome)
    // the change is attempted exactly when every check passes and a user is logged in
    ensures r.attempted.Some? <==> Validate(current, next, confirm).None? && Truthy(username)
    ensures Validate(current, next, confirm).Some? ==> r == FormOutcome(Validate(current, next, confirm).value, false, None)
    ensures Validate(current, next, confirm).None? && !Truthy(username) ==> r == FormOutcome(NoUser, false, None)
    ensures r.attempted.Some? ==>
      (&& r.attempted.value == ChangeOwnPassword(connected, verified, update)
       && r.message == r.attempted.value.message && r.success == r.attempted.value.success)
    ensures r.attempted.Some? && r.attempted.value.updated ==> Validate(current, next, confirm).None?
  {
    match Validate(current, next, confirm)
    case Some(msg) => FormOutcome(msg, false, None)
    case None =>
      if !Truthy(username) then FormOutcome(NoUser, false, None)
      else
        var c := ChangeOwnPassword(connected, verified, update);
        FormOutcome(c.message, c.success, Some(c))
  }
}

=== FILE: power.dfy ===
/** The power-series bucketer (`SupabaseData._get_power_consumption`) and the
    history step that turns each bucket into an average, a minimum and a
    maximum and reverses the three lists. */
module Power {
  import opened Frames
  import opened Stats

  /** The column the bucketer reads. */
  const PowerColumn: string := "instant_power_consumption"

  /** One bucket entry: the machine and its reading. */
  datatype Entry = Entry(machine: Value, power: Value)

  /** The bucketer's loop state: the buckets so far and, per machine seen,
      the bucket its next reading goes to. */
  datatype Bucketing = Bucketing(buckets: seq<seq<Entry>>, next: map<Value, nat>)

  function Id(row: Row): Value {
    Get(row, IdColumn)
  }

  function Reading(row: Row): Value {
    Get(row, PowerColumn)
  }

  /** The row has a reading; null readings are skipped. */
  predicate Sampled(row: Row) {
    Reading(row) != Null
  }

  function Init<T>(s: seq<T>): seq<T>
    requires |s| > 0
  {
    s[..|s| - 1]
  }

  function Last<T>(s: seq<T>): T
    requires |s| > 0
  {
    s[|s| - 1]
  }

  // ---------------------------------------------------------------------
  // Reference definitions: samples per machine, and the entries of each rank

  /** Machine `m`'s readings in input order, nulls left out. */
  function Samples(rows: seq<Row>, m: Value): seq<Value> {
    if |rows| == 0 then []
    else
      var row := Last(rows);
      Samples(Init(rows), m) + (if Id(row) == m && Sampled(row) then [Reading(row)] else [])
  }

  /** In input order, the entries that are their machine's `k`-th reading. */
  function ByRank(rows: seq<Row>, k: nat): seq<Entry> {
    if |rows| == 0 then []
    else
      var row := Last(rows);
      ByRank(Init(rows), k)
        + (if Sampled(row) && |Samples(Init(rows), Id(row))| == k then [Entry(Id(row), Reading(row))] else [])
  }

  /** The largest number of readings any machine has. */
  function Depth(rows: seq<Row>): nat {
    if |rows| == 0 then 0
    else
      var row := Last(rows);
      var d := Depth(Init(rows));
      var c := |Samples(Init(rows), Id(row))| + 1;
      if Sampled(row) && c > d then c else d
  }

  /** The number of rows with a reading. */
  function SampledCount(rows: seq<Row>): nat {
    if |rows| == 0 then 0
    else SampledCount(Init(rows)) + (if Sampled(Last(rows)) then 1 else 0)
  }

  /** How many entries of `es` belong to machine `m`. */
  function Occurrences(es: seq<Entry>, m: Value): nat {
    if |es| == 0 then 0
    else Occurrences(Init(es), m) + (if Last(es).machine == m then 1 else 0)
  }

  /** The total number of entries over all buckets. */
  function TotalEntries(bs: seq<seq<Entry>>): nat {
    if |bs| == 0 then 0 else |bs[0]| + TotalEntries(bs[1..])
  }

  // ---------------------------------------------------------------------
  // The bucketer as written

  /** Appends empty buckets until index `k` exists. */
  function Pad(bs: seq<seq<Entry>>, k: nat): (r: seq<seq<Entry>>)
    ensures |r| == if k < |bs| then |bs| else k + 1
    ensures forall j :: 0 <= j < |bs| ==> r[j] == bs[j]
    ensures forall j :: |bs| <= j < |r| ==> r[j] == []
    decreases k + 1 - |bs|
  {
    if k < |bs| then bs else Pad(bs + [[]], k)
  }

  /** One iteration of the bucketer's loop. */
  function Step(s: Bucketing, row: Row): Bucketing {
    var id := Id(row);
    var next := if id in s.next then s.next else s.next[id := 0];
    if !Sampled(row) then Bucketing(s.buckets, next)
    else
      var k := next[id];
      var bs := Pad(s.buckets, k);
      Bucketing(bs[k := bs[k] + [Entry(id, Reading(row))]], next[id := k + 1])
  }

  /** The loop run over `rows` in order. */
  function Fold(rows: seq<Row>): Bucketing {
    if |rows| == 0 then Bucketing([], map[])
    else Step(Fold(Init(rows)), Last(rows))
  }

  // ---------------------------------------------------------------------
  // The loop computes the reference definitions

  /** No machine has more readings than the deepest one. */
  lemma {:induction false} SamplesWithinDepth(rows: seq<Row>, m: Value)
    ensures |Samples(rows, m)| <= Depth(rows)
  {
    if |rows| > 0 {
      SamplesWithinDepth(Init(rows), m);
      SamplesWithinDepth(Init(rows), Id(Last(rows)));
    }
  }

  /** Exactly the ranks below the depth have entries. */
  lemma {:induction false} RanksBelowDepth(rows: seq<Row>, k: nat)
    ensures k < Depth(rows) <==> ByRank(rows, k) != []
  {
    if |rows| > 0 {
      RanksBelowDepth(Init(rows), k);
      SamplesWithinDepth(Init(rows), Id(Last(rows)));
    }
  }

  /** After the loop over `rows`, the counter of each machine seen holds its
      number of readings. */
  lemma {:induction false} FoldCountsReadings(rows: seq<Row>)
    ensures forall m :: m in Fold(rows).next ==> Fold(rows).next[m] == |Samples(rows, m)|
    ensures forall m :: m !in Fold(rows).next ==> Samples(rows, m) == []
  {
    if |rows| > 0 {
      FoldCountsReadings(Init(rows));
    }
  }

  /** After the loop over `rows`, bucket `k` holds the rank-`k` entries and
      there are as many buckets as the deepest machine has readings. */
  lemma {:induction false} FoldComputesRanks(rows: seq<Row>)
    ensures |Fold(rows).buckets| == Depth(rows)
    ensures forall k :: 0 <= k < |Fold(rows).buckets| ==> Fold(rows).buckets[k] == ByRank(rows, k)
  {
    if |rows| > 0 {
      var p, row := Init(rows), Last(rows);
      FoldComputesRanks(p);
      if Sampled(row) {
        FoldSampledStep(p, row);
        assert rows == p + [row];
      } else {
        assert Fold(rows).buckets == Fold(p).buckets;
        assert forall k :: ByRank(rows, k) == ByRank(p, k);
      }
    }
  }

  /** The step of `FoldComputesRanks` for a row with a reading. */
  lemma FoldSampledStep(p: seq<Row>, row: Row)
    requires Sampled(row)
    requires |Fold(p).buckets| == Depth(p)
    requires forall k :: 0 <= k < |Fold(p).buckets| ==> Fold(p).buckets[k] == ByRank(p, k)
    ensures |Fold(p + [row]).buckets| == Depth(p + [row])
    ensures forall k :: 0 <= k < |Fold(p + [row]).buckets| ==> Fold(p + [row]).buckets[k] == ByRank(p + [row], k)
  {
    var rows := p + [row];
    assert Init(rows) == p && Last(rows) == row;
    var s := Fold(p);
    var id := Id(row);
    var k0 := |Samples(p, id)|;
    var e := Entry(id, Reading(row));
    FoldCountsReadings(p);
    SamplesWithinDepth(p, id);
    var next := if id in s.next then s.next else s.next[id := 0];
    assert next[id] == k0;
    var bs := Pad(s.buckets, k0);
    assert Fold(rows).buckets == bs[k0 := bs[k0] + [e]];
    assert Depth(rows) == if k0 + 1 > Depth(p) then k0 + 1 else Depth(p);
    forall k | 0 <= k < |Fold(rows).buckets|
      ensures Fold(rows).buckets[k] == ByRank(rows, k)
    {
      assert ByRank(rows, k) == ByRank(p, k) + (if k0 == k then [e] else []);
      if k >= |s.buckets| {
        RanksBelowDepth(p, k);
      }
    }
  }

  /** `_get_power_consumption(df)`: with no rows it returns no buckets;
      otherwise it raises unless both the id and the power columns exist.
      Bucket `k` holds, in input order, one entry per machine that has a
      `k`-th non-null reading, and no bucket is empty. */
  function Buckets(f: Frame): (r: Result<seq<seq<Entry>>>)
    ensures |f.rows| == 0 ==> r == Ok([])
    ensures |f.rows| > 0 ==> (r.Ok? <==> IdColumn in f.columns && PowerColumn in f.columns)
    ensures r.Ok? ==> |r.value| == Depth(f.rows)
    ensures r.Ok? ==> forall k :: 0 <= k < |r.value| ==> r.value[k] == ByRank(f.rows, k) && r.value[k] != []
  {
    if |f.rows| == 0 then Ok([])
    else if IdColumn !in f.columns then Raise(KeyError(IdColumn))
    else if PowerColumn !in f.columns then Raise(KeyError(PowerColumn))
    else
      FoldComputesRanks(f.rows);
      assert forall k :: 0 <= k < Depth(f.rows) ==> ByRank(f.rows, k) != [] by {
        forall k | 0 <= k < Depth(f.rows) ensures ByRank(f.rows, k) != [] {
          RanksBelowDepth(f.rows, k);
        }
      }
      Ok(Fold(f.rows).buckets)
  }

  // ---------------------------------------------------------------------
  // Properties of the ranks

  /** Bucket `k` holds machine `m` exactly once if `m` has more than `k`
      readings, and not at all otherwise. */
  lemma {:induction false} RankHoldsEachMachineOnce(rows: seq<Row>, k: nat, m: Value)
    ensures Occurrences(ByRank(rows, k), m) == if |Samples(rows, m)| > k then 1 else 0
  {
    if |rows| > 0 {
      var p, row := Init(rows), Last(rows);
      RankHoldsEachMachineOnce(p, k, m);
      var tail := if Sampled(row) && |Samples(p, Id(row))| == k then [Entry(Id(row), Reading(row))] else [];
      OccurrencesAppend(ByRank(p, k), tail, m);
    }
  }

  lemma {:induction false} OccurrencesAppend(a: seq<Entry>, b: seq<Entry>, m: Value)
    requires |b| <= 1
    ensures Occurrences(a + b, m) == Occurrences(a, m) + Occurrences(b, m)
  {
    if |b| == 1 {
      assert Init(a + b) == a;
      assert Init(b) == [];
    } else {
      assert a + b == a;
    }
  }

  /** The entry of machine `m` in bucket `k` carries `m`'s `k`-th reading:
      null rows take no position. */
  lemma {:induction false} RankEntryIsKthReading(rows: seq<Row>, k: nat, i: nat)
    requires i < |ByRank(rows, k)|
    ensures var e := ByRank(rows, k)[i];
      k < |Samples(rows, e.machine)| && Samples(rows, e.machine)[k] == e.power && e.power != Null
  {
    var p, row := Init(rows), Last(rows);
    var e := ByRank(rows, k)[i];
    if i < |ByRank(p, k)| {
      RankEntryIsKthReading(p, k, i);
      assert e == ByRank(p, k)[i];
    }
  }

  lemma {:induction false} TotalEntriesUpdate(bs: seq<seq<Entry>>, k: nat, x: seq<Entry>)
    requires k < |bs|
    ensures TotalEntries(bs[k := x]) == TotalEntries(bs) - |bs[k]| + |x|
  {
    if k > 0 {
      TotalEntriesUpdate(bs[1..], k - 1, x);
      assert bs[k := x][1..] == bs[1..][k - 1 := x];
    }
  }

  lemma {:induction false} TotalEntriesPad(bs: seq<seq<Entry>>, k: nat)
    ensures TotalEntries(Pad(bs, k)) == TotalEntries(bs)
    decreases k + 1 - |bs|
  {
    if k >= |bs| {
      TotalEntriesSnoc(bs, []);
      TotalEntriesPad(bs + [[]], k);
    }
  }

  lemma {:induction false} TotalEntriesSnoc(bs: seq<seq<Entry>>, b: seq<Entry>)
    ensures TotalEntries(bs + [b]) == TotalEntries(bs) + |b|
  {
    if |bs| > 0 {
      TotalEntriesSnoc(bs[1..], b);
      assert (bs + [b])[1..] == bs[1..] + [b];
    }
  }

  /** Every non-null reading lands in exactly one bucket. */
  lemma {:induction false} EveryReadingBucketed(rows: seq<Row>)
    ensures TotalEntries(Fold(rows).buckets) == SampledCount(rows)
  {
    if |rows| > 0 {
      var p, row := Init(rows), Last(rows);
      EveryReadingBucketed(p);
      var s := Fold(p);
      if Sampled(row) {
        var id := Id(row);
        var next := if id in s.next then s.next else s.next[id := 0];
        var k := next[id];
        TotalEntriesPad(s.buckets, k);
        TotalEntriesUpdate(Pad(s.buckets, k), k, Pad(s.buckets, k)[k] + [Entry(id, Reading(row))]);
      }
    }
  }

  // ---------------------------------------------------------------------
  // The history step

  /** avg, min and max per bucket, each list reversed so that the deepest
      rank comes first and rank 0 last. */
  datatype History = History(avg: seq<real>, min: seq<real>, max: seq<real>)

  /** `x` is the reading of an entry of `bucket`. */
  ghost predicate IsReading(bucket: seq<Entry>, x: real) {
    exists i :: 0 <= i < |bucket| && NumericValue(bucket[i].power) == Some(x)
  }

  /** The bucket can be summarised: it is non-empty and every reading is a number. */
  predicate Summarizable(bucket: seq<Entry>) {
    |bucket| > 0 && forall i :: 0 <= i < |bucket| ==> NumericValue(bucket[i].power).Some?
  }

  /** The readings of a bucket whose entries are all numbers, in bucket order. */
  function ReadingsOf(bucket: seq<Entry>): (xs: seq<real>)
    requires forall i :: 0 <= i < |bucket| ==> NumericValue(bucket[i].power).Some?
  {
    seq(|bucket|, i requires 0 <= i < |bucket| && NumericValue(bucket[i].power).Some? =>
      NumericValue(bucket[i].power).value)
  }

  /** The readings of a bucket as numbers, in bucket order; a string or
      list reading cannot be averaged. */
  function Readings(bucket: seq<Entry>): (r: Result<seq<real>>)
    ensures r.Ok? <==> forall i :: 0 <= i < |bucket| ==> NumericValue(bucket[i].power).Some?
    ensures r.Ok? ==> r.value == ReadingsOf(bucket)
  {
    if |bucket| == 0 then Ok([])
    else
      match NumericValue(bucket[0].power)
      case None => Raise(TypeError)
      case Some(x) =>
        assert forall i :: 1 <= i < |bucket| ==> bucket[i] == bucket[1..][i - 1];
        match Readings(bucket[1..])
        case Raise(e) => Raise(e)
        case Ok(rest) => Ok([x] + rest)
  }

  /** `avg`, `lo` and `hi` are a correct summary of the bucket's readings:
      `avg` is their mean, `lo` and `hi` are readings bounding every reading,
      and `avg` lies between them. */
  ghost predicate Summarises(bucket: seq<Entry>, avg: real, lo: real, hi: real) {
    && Summarizable(bucket)
    && avg == Mean(ReadingsOf(bucket))
    && lo <= avg <= hi
    && IsReading(bucket, lo) && IsReading(bucket, hi)
    && forall x :: IsReading(bucket, x) ==> lo <= x <= hi
  }

  /** `(avg, min, max)` of one bucket: `np.average`, `np.max` and `np.min`
      over its readings. */
  function Summary(bucket: seq<Entry>): (r: Result<(real, real, real)>)
    ensures r.Ok? <==> Summarizable(bucket)
  {
    match Readings(bucket)
    case Raise(e) => Raise(e)
    case Ok(xs) =>
      if |xs| == 0 then Raise(ValueError) else Ok((Mean(xs), Min(xs), Max(xs)))
  }

  /** A bucket's summary, when there is one, is its readings' mean and two
      readings bounding all of them. */
  lemma SummaryCorrect(bucket: seq<Entry>)
    ensures Summary(bucket).Ok? ==> Summarises(bucket, Summary(bucket).value.0, Summary(bucket).value.1, Summary(bucket).value.2)
  {
    if Summary(bucket).Ok? {
      var xs := Readings(bucket).value;
      MeanBetweenMinMax(xs);
      forall x ensures x in xs <==> IsReading(bucket, x) {
        if x in xs {
          var i :| 0 <= i < |xs| && xs[i] == x;
          assert NumericValue(bucket[i].power) == Some(x);
        }
        if IsReading(bucket, x) {
          var i :| 0 <= i < |bucket| && NumericValue(bucket[i].power) == Some(x);
          assert xs[i] == x;
        }
      }
    }
  }

  /** The loop over the buckets, appending one summary per bucket. */
  function Forward(bs: seq<seq<Entry>>): (r: Result<seq<(real, real, real)>>)
    ensures r.Ok? ==> |r.value| == |bs|
  {
    if |bs| == 0 then Ok([])
    else
      match Summary(bs[0])
      case Raise(e) => Raise(e)
      case Ok(t) =>
        match Forward(bs[1..])
        case Raise(e) => Raise(e)
        case Ok(rest) => Ok([t] + rest)
  }

  /** The loop succeeds iff every bucket has a summary. */
  lemma {:induction false} ForwardOk(bs: seq<seq<Entry>>)
    ensures Forward(bs).Ok? <==> forall k :: 0 <= k < |bs| ==> Summary(bs[k]).Ok?
  {
    if |bs| > 0 {
      ForwardOk(bs[1..]);
      assert forall k :: 1 <= k < |bs| ==> bs[k] == bs[1..][k - 1];
    }
  }

  /** Entry `k` of the loop's list is bucket `k`'s summary. */
  lemma {:induction false} ForwardAt(bs: seq<seq<Entry>>)
    ensures Forward(bs).Ok? ==> forall k :: 0 <= k < |bs| ==> Summary(bs[k]) == Ok(Forward(bs).value[k])
  {
    if |bs| > 0 && Forward(bs).Ok? {
      ForwardAt(bs[1..]);
      var ts, rest := Forward(bs).value, Forward(bs[1..]).value;
      assert ts == [Summary(bs[0]).value] + rest;
      forall k | 1 <= k < |bs| ensures Summary(bs[k]) == Ok(ts[k]) {
        assert bs[k] == bs[1..][k - 1] && ts[k] == rest[k - 1];
      }
    }
  }

  function Reverse<T>(s: seq<T>): (r: seq<T>)
    ensures |r| == |s|
    ensures forall i :: 0 <= i < |s| ==> r[i] == s[|s| - 1 - i]
  {
    if |s| == 0 then [] else [Last(s)] + Reverse(Init(s))
  }

  /** The history step: raises unless every bucket is non-empty and numeric;
      otherwise the three lists have one element per bucket, and position
      `n-1-k` summarises bucket `k`, so the last element comes from bucket 0
      and the first from the deepest bucket. */
  function HistoryOf(bs: seq<seq<Entry>>): (r: Result<History>)
    ensures r.Ok? <==> forall k :: 0 <= k < |bs| ==> Summarizable(bs[k])
    ensures r.Ok? ==> |r.value.avg| == |r.value.min| == |r.value.max| == |bs|
    ensures r.Ok? ==> forall k :: 0 <= k < |bs| ==>
      Summarises(bs[k], r.value.avg[|bs| - 1 - k], r.value.min[|bs| - 1 - k], r.value.max[|bs| - 1 - k])
  {
    ForwardOk(bs);
    ForwardAt(bs);
    match Forward(bs)
    case Raise(e) => Raise(e)
    case Ok(ts) =>
      var h := History(Reverse(Column0(ts)), Reverse(Column1(ts)), Reverse(Column2(ts)));
      ReversedSummaries(bs, ts);
      ReversedCorrect(bs, h);
      Ok(h)
  }

  function Column0(ts: seq<(real, real, real)>): (c: seq<real>)
    ensures |c| == |ts| && forall i :: 0 <= i < |ts| ==> c[i] == ts[i].0
  {
    seq(|ts|, i requires 0 <= i < |ts| => ts[i].0)
  }

  function Column1(ts: seq<(real, real, real)>): (c: seq<real>)
    ensures |c| == |ts| && forall i :: 0 <= i < |ts| ==> c[i] == ts[i].1
  {
    seq(|ts|, i requires 0 <= i < |ts| => ts[i].1)
  }

  function Column2(ts: seq<(real, real, real)>): (c: seq<real>)
    ensures |c| == |ts| && forall i :: 0 <= i < |ts| ==> c[i] == ts[i].2
  {
    seq(|ts|, i requires 0 <= i < |ts| => ts[i].2)
  }

  /** Reversing the per-bucket summaries puts bucket `k`'s at `n-1-k`. */
  lemma ReversedSummaries(bs: seq<seq<Entry>>, ts: seq<(real, real, real)>)
    requires |ts| == |bs| && forall k :: 0 <= k < |bs| ==> Summary(bs[k]) == Ok(ts[k])
    ensures var h := History(Reverse(Column0(ts)), Reverse(Column1(ts)), Reverse(Column2(ts)));
      forall k :: 0 <= k < |bs| ==>
        Summary(bs[k]) == Ok((h.avg[|bs| - 1 - k], h.min[|bs| - 1 - k], h.max[|bs| - 1 - k]))
  {
    var h := History(Reverse(Column0(ts)), Reverse(Column1(ts)), Reverse(Column2(ts)));
    forall k | 0 <= k < |bs|
      ensures Summary(bs[k]) == Ok((h.avg[|bs| - 1 - k], h.min[|bs| - 1 - k], h.max[|bs| - 1 - k]))
    {
      var j := |bs| - 1 - k;
      assert j + k == |bs| - 1;
      assert h.avg[j] == ts[k].0 && h.min[j] == ts[k].1 && h.max[j] == ts[k].2;
    }
  }

  /** Summaries found at the reversed positions summarise their buckets. */
  lemma ReversedCorrect(bs: seq<seq<Entry>>, h: History)
    requires |h.avg| == |h.min| == |h.max| == |bs|
    requires forall k :: 0 <= k < |bs| ==>
      Summary(bs[k]) == Ok((h.avg[|bs| - 1 - k], h.min[|bs| - 1 - k], h.max[|bs| - 1 - k]))
    ensures forall k :: 0 <= k < |bs| ==>
      Summarises(bs[k], h.avg[|bs| - 1 - k], h.min[|bs| - 1 - k], h.max[|bs| - 1 - k])
  {
    forall k | 0 <= k < |bs|
      ensures Summarises(bs[k], h.avg[|bs| - 1 - k], h.min[|bs| - 1 - k], h.max[|bs| - 1 - k])
    {
      SummaryCorrect(bs[k]);
    }
  }

  /** Buckets followed by the history step, as the assembler runs them. */
  function PowerHistory(f: Frame): Result<History> {
    match Buckets(f)
    case Raise(e) => Raise(e)
    case Ok(bs) => HistoryOf(bs)
  }

  /** Each rank entry comes from a row with that machine id and reading. */
  lemma {:induction false} RankEntryFromRow(rows: seq<Row>, k: nat, i: nat)
    requires i < |ByRank(rows, k)|
    ensures exists r :: (0 <= r < |rows| && Sampled(rows[r]) &&
      Id(rows[r]) == ByRank(rows, k)[i].machine && Reading(rows[r]) == ByRank(rows, k)[i].power)
  {
    var p := Init(rows);
    if i < |ByRank(p, k)| {
      RankEntryFromRow(p, k, i);
      var r :| 0 <= r < |p| && Sampled(p[r]) && Id(p[r]) == ByRank(p, k)[i].machine && Reading(p[r]) == ByRank(p, k)[i].power;
      assert rows[r] == p[r];
    } else {
      assert rows[|rows| - 1] == Last(rows);
    }
  }

  /** Because no bucket is ever empty, the history step can only fail on a
      reading that is not a number: when every reading is a number or null,
      the power history has one point per rank. */
  lemma NumericReadingsGiveHistory(f: Frame)
    requires Buckets(f).Ok?
    requires forall i :: 0 <= i < |f.rows| ==> Reading(f.rows[i]) == Null || NumericValue(Reading(f.rows[i])).Some?
    ensures PowerHistory(f).Ok?
    ensures |PowerHistory(f).value.avg| == Depth(f.rows)
  {
    var bs := Buckets(f).value;
    forall k | 0 <= k < |bs| ensures Summarizable(bs[k]) {
      forall i | 0 <= i < |bs[k]| ensures NumericValue(bs[k][i].power).Some? {
        RankEntryFromRow(f.rows, k, i);
      }
    }
  }
}

=== FILE: session.dfy ===
/** The session store (`session_state.py`): a map from key to value with the
    three operations the pages use. Streamlit keeps one such map per browser
    session; here each operation takes the map and returns the new one. */
module Session {

  type State<V> = map<string, V>

  /** `init_session_state(key, value)`: stores `value` only when `key` is
      absent, and returns the value stored under `key` afterwards. */
  function InitKey<V>(st: State<V>, key: string, v: V): (r: (State<V>, V))
    ensures key in r.0 && r.0[key] == r.1
    ensures key !in st ==> r.0 == st[key := v] && r.1 == v
    ensures key in st ==> r.0 == st && r.1 == st[key]
  {
    var st' := if key !in st then st[key := v] else st;
    (st', st'[key])
  }

  /** `set_session_state(key, value)`: overwrites `key` and nothing else. */
  function SetKey<V>(st: State<V>, key: string, v: V): (r: State<V>)
    ensures key in r && r[key] == v
    ensures r.Keys == st.Keys + {key}
    ensures forall k :: k in st && k != key ==> r[k] == st[k]
  {
    st[key := v]
  }

  /** `get_session_state(key, default)`: the stored value, or `default` when
      the key is absent. Reading returns no new state, so it changes nothing. */
  function GetKey<V>(st: State<V>, key: string, default: V): (r: V)
    ensures key in st ==> r == st[key]
    ensures key !in st ==> r == default
  {
    if key in st then st[key] else default
  }

  /** A second `init` with any value is a no-op: init twice is init once. */
  lemma InitIdempotent<V>(st: State<V>, key: string, v: V, w: V)
    ensures InitKey(InitKey(st, key, v).0, key, w) == InitKey(st, key, v)
  {
  }

  /** After `set(k, v)`, `init(k, w)` returns `v` and leaves the state alone. */
  lemma SetThenInit<V>(st: State<V>, key: string, v: V, w: V)
    ensures InitKey(SetKey(st, key, v), key, w) == (SetKey(st, key, v), v)
  {
  }

  /** `get` sees what `set` stored, and `set` leaves every other key's
      reading unchanged. */
  lemma GetAfterSet<V>(st: State<V>, key: string, v: V, other: string, default: V)
    ensures GetKey(SetKey(st, key, v), key, default) == v
    ensures other != key ==> GetKey(SetKey(st, key, v), other, default) == GetKey(st, other, default)
  {
  }
}

=== FILE: software.dfy ===
/** The software tab (`company_dashes/software.py`): the firewall card, the
    count of idle machines and the packet-loss card. The packet-loss figure
    is `PacketLoss.PacketLossMean` over the latest metric rows. */
module Software {
  import opened Frames
  import opened Issues

  const FirewallMetric: string := "firewall_active"
  const ClickRate: string := "click_rate"
  const KeypressRate: string := "keypress_rate"

  /** The firewall card's text. */
  function FirewallLabel(issues: set<string>): (r: string)
    ensures r == "INATIVO" <==> FirewallMetric in issues
    ensures r == "ATIVO" <==> FirewallMetric !in issues
  {
    if FirewallMetric in issues then "INATIVO" else "ATIVO"
  }

  /** A machine is idle when both its mouse and its keyboard are flagged. */
  predicate Idle(labels: set<string>) {
    ClickRate in labels && KeypressRate in labels
  }

  /** The idle machines among `keys`. */
  function IdleAmong(m: IssueMap, keys: set<Value>): (r: set<Value>)
    requires keys <= m.Keys
    ensures r <= keys
    ensures forall k :: k in r <==> k in keys && Idle(m[k])
  {
    set k | k in keys && Idle(m[k])
  }

  /** Visiting one more machine adds one to the idle count exactly when that
      machine is idle. */
  lemma IdleAmongAdd(m: IssueMap, done: set<Value>, k: Value)
    requires done <= m.Keys && k in m && k !in done
    ensures |IdleAmong(m, done + {k})| == |IdleAmong(m, done)| + (if Idle(m[k]) then 1 else 0)
  {
    if Idle(m[k]) {
      assert IdleAmong(m, done + {k}) == IdleAmong(m, done) + {k};
    } else {
      assert IdleAmong(m, done + {k}) == IdleAmong(m, done);
    }
  }

  /** The loop over the issue map's values that counts the idle machines. */
  method IdleCount(m: IssueMap) returns (n: nat)
    ensures n == |IdleAmong(m, m.Keys)|
    ensures n <= |m|
  {
    n := 0;
    var done: set<Value> := {};
    var todo := m.Keys;
    while todo != {}
      invariant todo <= m.Keys && done <= m.Keys
      invariant todo !! done && todo + done == m.Keys
      invariant n == |IdleAmong(m, done)| <= |done|
      decreases |todo|
    {
      var k :| k in todo;
      IdleAmongAdd(m, done, k);
      if Idle(m[k]) {
        n := n + 1;
      }
      done := done + {k};
      todo := todo - {k};
    }
    assert done == m.Keys;
  }
}

=== FILE: stats.dfy ===
/** Sum, mean, minimum and maximum of a non-empty list of reals, the numpy and
    pandas reductions the engine applies to every column and bucket. */
module Stats {

  function Sum(s: seq<real>): real {
    if |s| == 0 then 0.0 else s[0] + Sum(s[1..])
  }

  function Mean(s: seq<real>): real
    requires |s| > 0
  {
    Sum(s) / (|s| as real)
  }

  function Min(s: seq<real>): (m: real)
    requires |s| > 0
    ensures m in s
    ensures forall x :: x in s ==> m <= x
  {
    if |s| == 1 then s[0]
    else
      var rest := Min(s[1..]);
      assert forall x :: x in s ==> x == s[0] || x in s[1..];
      if s[0] <= rest then s[0] else rest
  }

  function Max(s: seq<real>): (m: real)
    requires |s| > 0
    ensures m in s
    ensures forall x :: x in s ==> x <= m
  {
    if |s| == 1 then s[0]
    else
      var rest := Max(s[1..]);
      assert forall x :: x in s ==> x == s[0] || x in s[1..];
      if s[0] >= rest then s[0] else rest
  }

  /** A lower bound on every element bounds the sum by `n` copies of it. */
  lemma {:induction false} SumAtLeast(s: seq<real>, lo: real)
    requires forall x :: x in s ==> lo <= x
    ensures Sum(s) >= (|s| as real) * lo
  {
    if |s| > 0 {
      assert s[0] in s;
      assert forall x :: x in s[1..] ==> x in s;
      SumAtLeast(s[1..], lo);
      assert (|s| as real) * lo == lo + ((|s| - 1) as real) * lo;
    }
  }

  /** An upper bound on every element bounds the sum by `n` copies of it. */
  lemma {:induction false} SumAtMost(s: seq<real>, hi: real)
    requires forall x :: x in s ==> x <= hi
    ensures Sum(s) <= (|s| as real) * hi
  {
    if |s| > 0 {
      assert s[0] in s;
      assert forall x :: x in s[1..] ==> x in s;
      SumAtMost(s[1..], hi);
      assert (|s| as real) * hi == hi + ((|s| - 1) as real) * hi;
    }
  }

  /** The mean lies between any lower and any upper bound of the elements. */
  lemma MeanWithin(s: seq<real>, lo: real, hi: real)
    requires |s| > 0
    requires forall x :: x in s ==> lo <= x <= hi
    ensures lo <= Mean(s) <= hi
  {
    var n := |s| as real;
    SumAtLeast(s, lo);
    SumAtMost(s, hi);
    assert Mean(s) * n == Sum(s);
  }

  /** The mean lies between the minimum and the maximum. */
  lemma MeanBetweenMinMax(s: seq<real>)
    requires |s| > 0
    ensures Min(s) <= Mean(s) <= Max(s)
  {
    MeanWithin(s, Min(s), Max(s));
  }
}
